=== FILE: README.md ===
# django-avatar views and routes in Dafny

This project models the request handling of django-avatar's views and its URL
table. The views add, change and delete avatars. Each has a "for user" variant
that an administrator runs on another user's avatars. `render_primary`
redirects to a user's primary avatar at a given size.

A user's avatars are a sequence of `Avatar(id, primary)` records in the
store's natural order. The `order_by('-primary')` ordering is an input
`ordered`: the same records with the primary ones first. The store decides how
primaries tie, so the model never fixes it. Each view is a pure function from
the request and the results of its collaborators to three things: a
`Response`, the avatars afterwards, and the signals sent, in order. The
collaborators are form validation, the user lookup, the admin test and the id
the store assigns. The route table is a function from a path to the view it
selects and the keyword arguments it captures.

Modules:

- `Seqs`: `Option`, the subsequence order `Sub`, `Filter`, `ToSet`.
- `Avatars`: `_get_avatars` and the store transitions of add, change and delete.
- `AvatarProperties`: lemmas about those transitions.
- `Requests`: the request fields the views read, `_get_next`, and `next_override or _get_next(request)`.
- `NextProperties`: the redirect chain compared with an independent first-non-empty reading.
- `Decimal`: the `\d` class, `int()` on digit strings, and `str()`.
- `Urls`: `urlpatterns` as an anchored matcher with first-match resolution.
- `UrlProperties`: the language of each pattern, pairwise disjointness, and order independence.
- `Views`: the seven views with their guards.
- `ViewProperties`: lemmas about the views.
- `Dispatch`: the route table and the views together.

## Model

| member | source | states |
|---|---|---|
| Avatars.GetAvatars | avatar/views.py:40-57 | There is no current avatar exactly when the user has none. The current avatar is one of the user's. It is primary whenever any avatar is primary. With a cap of 1 only the current avatar is listed; otherwise the first `cap` avatars in natural order. |
| AvatarProperties.ListedAreStored | avatar/views.py:40-57 | Every listed avatar is one of the user's, and listing keeps ids unique. |
| AvatarProperties.ListedCount | avatar/views.py:51-56 | Exactly min(1, n) avatars are listed with a cap of 1, and min(cap, n) otherwise; a cap above 1 lists the first stored avatar first. |
| Avatars.AddAvatar | avatar/views.py:69-77 | The upload appends one record marked primary, with the new id. Earlier records are unchanged. The id set gains exactly the new id. The only signal is `avatar_updated` for the new avatar. |
| AvatarProperties.AddKeepsIdsUnique | avatar/views.py:71-74 | A fresh id keeps ids unique. |
| AvatarProperties.AddLeavesPrimaryCurrent | avatar/views.py:45-47 | After an upload the current avatar exists and is primary. |
| Avatars.ChangeAvatar | avatar/views.py:106-116 | The chosen record becomes primary. Every other record is unchanged. One `avatar_updated` signal is sent for the chosen avatar. |
| AvatarProperties.ChangeNeverDemotes | avatar/views.py:107-111 | No avatar loses its primary flag, and the id set is unchanged. |
| AvatarProperties.ChangeCanLeaveTwoPrimaries | avatar/views.py:107-111 | If another avatar was primary, two primaries exist afterwards. |
| AvatarProperties.ChangeKeepsOldCurrentExample | avatar/views.py:45-47 | After choosing avatar 2 over primary avatar 1, both are primary, and with avatar 1 ordered first it is still the current avatar. |
| Avatars.SetPrimary | avatar/views.py:150-151 | Only the flag of the record with the given id is set. Every record keeps its id and position, and no flag is cleared. |
| Avatars.Chosen | avatar/views.py:142-143 | The chosen avatars are exactly the listed ones whose id was submitted, kept in list order. |
| Avatars.Remove | avatar/views.py:155 | Exactly the records with a submitted id go. The others stay, unchanged and in order, and the surviving ids are the stored ids minus the submitted ones. |
| Avatars.FirstUnchosen | avatar/views.py:148-154 | Finds the first listed avatar whose id was not chosen: every earlier listed avatar was chosen, and None means every listed avatar was chosen. |
| Avatars.Promotion | avatar/views.py:146-154 | A promotion happens only when the current avatar was chosen and more avatars are listed than ids were submitted; the promoted avatar is listed and not chosen. |
| Avatars.DeleteAvatars | avatar/views.py:140-155 | The surviving ids are the stored ids minus the chosen ones. `avatar_deleted` signals are sent only by the user's own delete, and only for chosen avatars. |
| AvatarProperties.DeleteRemovesExactlyChosen | avatar/views.py:155 | Exactly the chosen ids are removed. Ids stay unique. The store shrinks by the number of distinct chosen ids. |
| AvatarProperties.DeletePromotesIff | avatar/views.py:146-154 | An `avatar_updated` signal is sent if and only if the current avatar was chosen and more avatars are listed than ids were submitted. |
| AvatarProperties.NoPromotionOnlyRemoves | avatar/views.py:146-155 | Unless the current avatar was chosen and more avatars are listed than ids were submitted, delete only removes the chosen records: the survivors are the unchosen records, unchanged, and only `avatar_deleted` signals are sent. |
| AvatarProperties.DistinctChoicesCountSurvivors | avatar/views.py:146 | With distinct choices, the count test holds exactly when some listed avatar survives. |
| AvatarProperties.RepeatedChoiceSkipsPromotion | avatar/views.py:146 | A concrete case: with two avatars, the current one chosen twice makes `len(ids)` equal the listed count, so the other avatar survives unpromoted and no primary remains. |
| AvatarProperties.AllListedChosenNoPromotion | avatar/views.py:146-155 | When every listed avatar is chosen, delete promotes nothing, even if avatars beyond the cap survive: the survivors are the unchosen records, unchanged, and only `avatar_deleted` signals are sent. |
| AvatarProperties.UnlistedSurvivorNotPromoted | avatar/views.py:146-155 | A concrete case: with a cap of 2 and three avatars, deleting both listed ones leaves the third, unpromoted, and the for-user delete sends no signal. |
| AvatarProperties.DeletePromotesFirstUnchosen | avatar/views.py:148-154 | The promoted avatar is the first listed one not chosen. It survives as primary, and every other survivor is unchanged. |
| AvatarProperties.DeleteKeepingCurrentChangesNoFlag | avatar/views.py:146-155 | If the current avatar was not chosen, the survivors are exactly the unchosen records, unchanged and in order, and no `avatar_updated` is sent. |
| AvatarProperties.CapOneNeverPromotes | avatar/views.py:51-52 | With a cap of 1, delete never promotes. |
| AvatarProperties.DeleteSignalsInListOrder | avatar/views.py:142-154 | The `avatar_deleted` signals come first, one per chosen listed avatar in list order, followed by at most one `avatar_updated`. The for-user delete sends only `avatar_updated`. |
| AvatarProperties.UpdatedCarriesOldCurrent | avatar/views.py:152-153 | The `avatar_updated` sent by delete carries the old current avatar, which was chosen and is gone, not the promoted one. |
| Requests.GetNext | avatar/views.py:33-37 | The POST `next` wins if present, then the GET `next`, then the referer. An empty value picked at any layer gives the request path. |
| Requests.RedirectTarget | avatar/views.py:77 | A non-empty override wins; otherwise the result is `_get_next`. |
| NextProperties.GetNextIsPrecedenceChain | avatar/views.py:18-37 | When no present value is empty, `_get_next` equals an independently defined first-non-empty reading of its precedence. |
| NextProperties.EmptyPostNextFallsToPath | avatar/views.py:33-36 | An empty POST `next` gives the path even when a GET `next` is present, unlike the first-non-empty chain. |
| NextProperties.EmptyQueryNextHidesReferer | avatar/views.py:33-36 | An empty GET `next` hides the referer. |
| NextProperties.EmptyPostNextExample | avatar/views.py:33-36 | A concrete request where the two readings differ. |
| NextProperties.RedirectTargetNonEmpty | avatar/views.py:35-36 | The target is non-empty whenever the path is. |
| Decimal.ParseInt | avatar/views.py:287 | `int(size)` succeeds exactly on non-empty digit strings. |
| Decimal.ParseShow | avatar/views.py:287 | A size written as decimal parses back to itself. |
| Urls.Match | avatar/urls.py:6-17 | A match captures a well-formed value for each named group of the pattern and nothing else, and the path is rebuilt exactly from the pattern and those values. |
| Urls.RenderPrimaryArgs | avatar/urls.py:9 | After the prefix, the pattern captures exactly `user` and `size`, each a non-empty run of its class, and these rebuild the rest of the path. |
| Urls.ForUserArgs | avatar/urls.py:12-17 | After the prefix, the pattern captures exactly `for_user`, a non-empty run of its class, which rebuilds the rest of the path. |
| Urls.Resolve | avatar/urls.py:5-18 | A resolved path matches its view's pattern with the returned arguments and is rebuilt from them. An unresolved path matches no pattern at all. |
| UrlProperties.ReverseThenResolve | avatar/urls.py:5-18 | The path built from any well-formed arguments of a pattern resolves to that pattern's view with exactly those arguments. |
| Urls.FirstMatch | avatar/urls.py:5-18 | The resolved view is in the table and matches the path with the returned arguments; no match means no pattern matches. |
| UrlProperties.LiteralPatternLanguage | avatar/urls.py:6-8 | `add/`, `change/` and `delete/` each match exactly their literal path and capture nothing. |
| UrlProperties.RenderPrimaryLanguage | avatar/urls.py:9-11 | Any user name from the class and any digit run form a matching path, which captures them unchanged. |
| UrlProperties.RenderPrimaryCaptures | avatar/urls.py:9 | A render_primary match captures exactly `user` and `size`, both well-formed, and the path is rebuilt from them. |
| UrlProperties.ForUserLanguage | avatar/urls.py:12-17 | Any name from the for-user class forms a matching path, which captures it as `for_user`. |
| UrlProperties.ForUserCaptures | avatar/urls.py:12-17 | A for-user match captures exactly `for_user`, and the path is rebuilt from it. |
| UrlProperties.PatternsDisjoint | avatar/urls.py:5-18 | No path matches two patterns. |
| UrlProperties.FirstMatchIsOnlyMatch | avatar/urls.py:5-18 | First-match resolution over any table yields (v, kwargs) if and only if v is in the table and matches with kwargs. |
| UrlProperties.ResolveIsOrderFree | avatar/urls.py:5-18 | A path resolves to v with kwargs if and only if pattern v matches it. |
| UrlProperties.ReorderedTableResolvesAlike | avatar/urls.py:5-18 | Any reordering of the table resolves every path the same way. |
| UrlProperties.LiteralRoutesExact | avatar/urls.py:6-8 | A path reaches add, change or delete if and only if it is that literal. |
| UrlProperties.CapturedSegmentsWellFormed | avatar/urls.py:9-17 | Every captured argument is non-empty and contains no `/`. |
| UrlProperties.RenderPrimarySizeParses | avatar/urls.py:9 | A routed size is a digit string that `int()` accepts. |
| UrlProperties.PlusOnlyForUser | avatar/urls.py:9-17 | A user name containing `+` reaches the for-user views but never render_primary. |
| UrlProperties.PrefixSelectsPattern | avatar/urls.py:5-18 | The literal prefix alone rules out every other pattern. |
| UrlProperties.PlusNameExample | avatar/urls.py:9-13 | `add_for_user/a+b/` resolves, and `render_primary/a+b/80/` does not. |
| Views.Guard | avatar/views.py:179-181 | The order of the checks: login first, then the user lookup, then the admin test; a failed check writes nothing. |
| Views.Page | avatar/views.py:78-86 | The page shows `_get_avatars` and the target, and changes nothing. |
| Views.AddBody | avatar/views.py:65-86 | The view returns `redirect(target)` exactly on a POST with an `avatar` file that the form accepts, and then performs the upload; otherwise it shows the page unchanged. Either way it directs to the target. |
| Views.AddView | avatar/views.py:60-86 | An anonymous request is sent to log in and nothing changes; otherwise the add body runs. |
| Views.AddForUserView | avatar/views.py:175-207 | Only an admitted requester reaches the add body; every other request writes nothing. |
| Views.ChangeBody | avatar/views.py:95-128 | Every POST returns `redirect(target)`, and only a valid choice makes a change. Any other method shows the page. |
| Views.ChangeView | avatar/views.py:89-128 | Login guard, then the change body. |
| Views.ChangeForUserView | avatar/views.py:209-248 | Only an admitted requester reaches the change body. |
| Views.DeleteBody | avatar/views.py:135-168 | The view returns `redirect(target)` exactly on a POST whose form is valid, and then performs the delete; otherwise it shows the page unchanged. |
| Views.DeleteView | avatar/views.py:131-168 | Login guard, then the delete body with `avatar_deleted` signals. |
| Views.DeleteForUserView | avatar/views.py:250-283 | Only an admitted requester reaches the delete body without `avatar_deleted` signals. |
| Views.RenderPrimaryView | avatar/views.py:286-299 | A non-numeric size is a `ValueError`. Otherwise the view redirects to the primary avatar at that size, or to the default URL when the user has none. |
| ViewProperties.OverrideDecidesTarget | avatar/views.py:77-82 | A non-empty `next_override` is the target of every view, whether it redirects or renders; otherwise `_get_next` is. |
| ViewProperties.ShownPagesWriteNothing | avatar/views.py:78-86 | A rendered page never wrote or signalled, and shows `_get_avatars`. |
| ViewProperties.OnlyValidPostsWrite | avatar/views.py:60-168 | Non-POST requests render. An invalid POST re-renders in add and delete, but in change it redirects without writing. |
| ViewProperties.ForUserGuardsInOrder | avatar/views.py:179-181 | For all three for-user views, the response is login, then not-found, then denied, in that order, and nothing changes. |
| ViewProperties.ForUserAddChangeMatchOwn | avatar/views.py:175-248 | For-user add and change act exactly as the owner's own views would. |
| ViewProperties.ForUserDeleteDropsDeletedSignals | avatar/views.py:261-274 | For-user delete has the same response and store as the owner's delete. Its events are the owner's minus the leading `avatar_deleted` signals. |
| Dispatch.RoutedRenderPrimaryRedirects | avatar/views.py:287 | A routed render_primary always redirects: its `int(size)` never meets a non-digit string. |
| Dispatch.RenderPrimaryLinkRoundTrip | avatar/views.py:286-299 | A link built from a user and a size resolves to render_primary with those arguments, and the view uses that very size. |
| Dispatch.LeadingZerosSameRedirect | avatar/views.py:287 | `080` routes, and it redirects exactly like `80`. |

Two ways the code departs from a natural reading of its behaviour:

- One might expect the chosen avatar to be the current one after `change`. The
  code only sets its flag. Demoting any other primary would be the job of
  `Avatar.save` in avatar/models.py, which is not part of this model. With two primaries, which one comes
  first depends on the store's tie order (`ChangeKeepsOldCurrentExample`). The
  model follows the code.
- The docstring of `_get_next` lets the first layer whose `next` key is present
  decide, and the code does the same. What the docstring does not mention is
  the empty-value fallback: an empty value at that layer gives the request
  path rather than the next layer's value (`EmptyPostNextFallsToPath`). So
  `_get_next` differs from a natural first-non-empty reading of the
  precedence (`GetNextIsPrecedenceChain` states when the two agree).

## Left out

- The ORM, image storage, thumbnails, `invalidate_cache`, messages and templates have no modelled effect. Form validation, the user lookup, `AVATAR_ADMIN_TEST`, the store's new ids and its primary tie order are inputs.
- `avatar/models.py` is not part of this model, including what `Avatar.save` does to other primaries.
- `extra_context`, the form objects in the template context, and the template names are not modelled.
- `upload_form`/`primary_form` overrides: only the validity they report is modelled.
- Ids are naturals, and the form's text ids (`six.text_type(a.id) in ids`) are taken to compare like the numbers they denote.
- `unicode(...)` in views.py:264 and 267 is taken as the same conversion as line 146. On Python 3 it would raise a `NameError`, and that error path is not modelled.
- Views.DeleteBody requires that every submitted choice be a listed avatar and that at least one be given, which the delete form enforces. Invalid forms are modelled as `None`.
- Views.ChangeBody requires that a valid choice be a listed avatar, which the primary form enforces.
- Decimal.ParseInt: Python's `int()` also accepts signs, surrounding whitespace, underscores and non-ASCII digits. The route never passes those, so only digit strings are modelled.
- Decimal.ParseInt: CPython 3.11 and the 2022 security releases (3.7.14, 3.8.14, 3.9.14, 3.10.7) make `int()` raise `ValueError` for a string of more than `sys.get_int_max_str_digits()` digits (4300 by default). The model has no such limit, so it is exact for Python 2 and for Python 3 without the limit.
- Dispatch.RoutedRenderPrimaryRedirects: its promise that a routed size never raises `ValueError` does not cover the digit limit above; a size of more than 4300 digits would raise on those interpreters.
- `\w` and `\d` are taken to be ASCII. Django compiles patterns with Unicode classes, so names with other letters or digits are not covered.
- `$` is modelled as the end of the path. Older Django resolvers also let `$` match before a final newline; that corner is not modelled.
- URL inclusion prefixes, reversing by name and the resolver's error pages are not modelled.
- `Redirect(location)` is the argument handed to Django's `redirect()`. When that target is a URL-pattern name rather than a path, `resolve_url` reverses it; that reversal, and the `NoReverseMatch` it raises after the writes and signals have happened, are not modelled.
- A negative `AVATAR_MAX_AVATARS_PER_USER` is not modelled, because the cap is a natural number.
- Concurrent requests are not modelled.
- `login_required`'s redirect URL is reduced to `LoginRedirect`.
- Avatars.GetAvatars: does not state which primary is current when several are, because that is the store's tie order.
- NextProperties.GetNextIsPrecedenceChain: holds only when no present value is empty. The other case is covered by `EmptyPostNextFallsToPath` and `EmptyQueryNextHidesReferer`.

=== FILE: avatar_properties.dfy ===
/** Properties of the avatar bookkeeping: what `_get_avatars` promises, what add
    and change leave alone, and how delete removes, promotes and signals. */
module AvatarProperties {
  import opened Seqs
  import opened Avatars

  /** With every id used once, a user has as many distinct ids as avatars. */
  lemma {:induction false} UniqueIdsCardinality(avs: seq<Avatar>)
    requires UniqueIds(avs)
    ensures |Ids(avs)| == |avs|
  {
    if avs != [] {
      UniqueIdsCardinality(avs[1..]);
      assert Ids(avs) == {avs[0].id} + Ids(avs[1..]);
      assert avs[0].id !in Ids(avs[1..]);
    }
  }

  /** Dropping records never makes two of them share an id. */
  lemma {:induction false} SubKeepsUniqueIds(xs: seq<Avatar>, ys: seq<Avatar>)
    requires Sub(xs, ys) && UniqueIds(ys)
    ensures UniqueIds(xs)
    decreases |ys|
  {
    if xs != [] {
      if xs[0] == ys[0] && Sub(xs[1..], ys[1..]) {
        SubKeepsUniqueIds(xs[1..], ys[1..]);
        SubMembers(xs[1..], ys[1..]);
        forall i, j | 0 <= i < j < |xs| ensures xs[i].id != xs[j].id {
          if i == 0 {
            assert xs[j] == xs[1..][j - 1];
            assert xs[j] in xs[1..];
            assert xs[j] in ys[1..];
            var m :| 0 <= m < |ys[1..]| && ys[1..][m] == xs[j];
            assert ys[m + 1] == xs[j];
          } else {
            assert xs[i] == xs[1..][i - 1] && xs[j] == xs[1..][j - 1];
          }
        }
      } else {
        SubKeepsUniqueIds(xs, ys[1..]);
      }
    }
  }

  /** Every listed avatar is a stored one, and the listing repeats no id. */
  lemma ListedAreStored(store: seq<Avatar>, ordered: seq<Avatar>, cap: nat)
    requires PrimaryFirst(store, ordered)
    ensures forall a :: a in GetAvatars(store, ordered, cap).listed ==> a in store
    ensures Ids(GetAvatars(store, ordered, cap).listed) <= Ids(store)
    ensures UniqueIds(store) ==> UniqueIds(GetAvatars(store, ordered, cap).listed)
  {
  }

  /** `_get_avatars`: how many avatars are listed under each cap. */
  lemma ListedCount(store: seq<Avatar>, ordered: seq<Avatar>, cap: nat)
    requires PrimaryFirst(store, ordered)
    ensures cap == 1 ==> |GetAvatars(store, ordered, cap).listed| == Min(1, |store|)
    ensures cap != 1 ==> |GetAvatars(store, ordered, cap).listed| == Min(cap, |store|)
    ensures cap != 1 && cap > 0 && store != [] ==> GetAvatars(store, ordered, cap).listed[0] == store[0]
  {
  }

  // ---------------------------------------------------------------- add

  /** A fresh id keeps the store's ids unique. */
  lemma AddKeepsIdsUnique(store: seq<Avatar>, newId: nat)
    requires UniqueIds(store) && newId !in Ids(store)
    ensures UniqueIds(AddAvatar(store, newId).store)
  {
    var r := AddAvatar(store, newId).store;
    forall i, j | 0 <= i < j < |r| ensures r[i].id != r[j].id {
      if j == |store| {
        assert r[i] == store[i];
        assert store[i] in store;
      } else {
        assert r[i] == store[i] && r[j] == store[j];
      }
    }
  }

  /** After an upload, whichever avatar the store puts first, the current avatar
      is a primary one. Which primary it is depends on the store's tie order. */
  lemma AddLeavesPrimaryCurrent(store: seq<Avatar>, newId: nat, ordered: seq<Avatar>, cap: nat)
    requires PrimaryFirst(AddAvatar(store, newId).store, ordered)
    ensures GetAvatars(AddAvatar(store, newId).store, ordered, cap).current.Some?
    ensures GetAvatars(AddAvatar(store, newId).store, ordered, cap).current.value.primary
  {
  }

  // ---------------------------------------------------------------- change

  /** Change never demotes: every avatar that was primary stays primary. */
  lemma ChangeNeverDemotes(store: seq<Avatar>, choice: nat)
    requires choice in Ids(store)
    ensures forall i :: 0 <= i < |store| && store[i].primary ==> ChangeAvatar(store, choice).store[i].primary
    ensures Ids(ChangeAvatar(store, choice).store) == Ids(store)
  {
  }

  /** Choosing a non-primary avatar while another is primary leaves two
      primaries side by side. */
  lemma ChangeCanLeaveTwoPrimaries(store: seq<Avatar>, choice: nat, other: nat)
    requires choice in Ids(store)
    requires other < |store| && store[other].primary && store[other].id != choice
    ensures exists i, j :: 0 <= i < j < |store| && ChangeAvatar(store, choice).store[i].primary && ChangeAvatar(store, choice).store[j].primary
  {
    var r := ChangeAvatar(store, choice).store;
    var a :| a in store && a.id == choice;
    var c :| 0 <= c < |store| && store[c] == a;
    assert r[c].primary && r[other].primary && c != other;
    if c < other {
      assert 0 <= c < other < |store| && r[c].primary && r[other].primary;
    } else {
      assert 0 <= other < c < |store| && r[other].primary && r[c].primary;
    }
  }

  /** A concrete case: avatar 1 is primary, the user chooses avatar 2; both are
      primary afterwards, and a store that lists avatar 1 first still reports it
      as current. */
  lemma ChangeKeepsOldCurrentExample()
    ensures ChangeAvatar([Avatar(1, true), Avatar(2, false)], 2).store == [Avatar(1, true), Avatar(2, true)]
    ensures PrimaryFirst([Avatar(1, true), Avatar(2, true)], [Avatar(1, true), Avatar(2, true)])
    ensures GetAvatars([Avatar(1, true), Avatar(2, true)], [Avatar(1, true), Avatar(2, true)], 2).current == Some(Avatar(1, true))
  {
    var r := ChangeAvatar([Avatar(1, true), Avatar(2, false)], 2).store;
    assert Avatar(2, false) in [Avatar(1, true), Avatar(2, false)];
    assert r[0] == Avatar(1, true) && r[1] == Avatar(2, true);
  }

  // ---------------------------------------------------------------- delete

  /** The pieces a delete is built from: the current avatar, the promotion
      decision and the `avatar_deleted` signals. */
  lemma DeleteUnfold(store: seq<Avatar>, ordered: seq<Avatar>, cap: nat, ids: seq<nat>, sendDeleted: bool)
    returns (current: Avatar, p: Option<Avatar>, deleted: seq<Event>)
    requires PrimaryFirst(store, ordered)
    requires ValidChoices(GetAvatars(store, ordered, cap).listed, ids)
    ensures GetAvatars(store, ordered, cap).current == Some(current)
    ensures p == Promotion(GetAvatars(store, ordered, cap).listed, current, ids)
    ensures deleted == if sendDeleted then DeletedSignals(Chosen(GetAvatars(store, ordered, cap).listed, ids)) else []
    ensures forall e :: e in deleted ==> e.Deleted?
    ensures DeleteAvatars(store, ordered, cap, ids, sendDeleted).store
      == Remove(if p.Some? then SetPrimary(store, p.value.id) else store, ids)
    ensures DeleteAvatars(store, ordered, cap, ids, sendDeleted).events
      == deleted + (if p.Some? then [Updated(current)] else [])
  {
    var sel := GetAvatars(store, ordered, cap);
    assert ids[0] in ids;
    current := sel.current.value;
    p := Promotion(sel.listed, current, ids);
    deleted := if sendDeleted then DeletedSignals(Chosen(sel.listed, ids)) else [];
  }

  /** Delete removes exactly the chosen ids: they are gone, every other stored id
      remains, ids stay unique, and the store shrinks by the number of distinct
      ids chosen. */
  lemma DeleteRemovesExactlyChosen(store: seq<Avatar>, ordered: seq<Avatar>, cap: nat, ids: seq<nat>, sendDeleted: bool)
    requires PrimaryFirst(store, ordered) && UniqueIds(store)
    requires ValidChoices(GetAvatars(store, ordered, cap).listed, ids)
    ensures Ids(DeleteAvatars(store, ordered, cap, ids, sendDeleted).store) == Ids(store) - ToSet(ids)
    ensures UniqueIds(DeleteAvatars(store, ordered, cap, ids, sendDeleted).store)
    ensures |DeleteAvatars(store, ordered, cap, ids, sendDeleted).store| == |store| - |ToSet(ids)|
  {
    var current, p, deleted := DeleteUnfold(store, ordered, cap, ids, sendDeleted);
    var after := DeleteAvatars(store, ordered, cap, ids, sendDeleted).store;
    var base := if p.Some? then SetPrimary(store, p.value.id) else store;
    assert UniqueIds(base) && Ids(base) == Ids(store);
    assert after == Remove(base, ids);
    assert Sub(after, base);
    SubKeepsUniqueIds(after, base);
    ListedAreStored(store, ordered, cap);
    ChosenIdsAreStored(Ids(GetAvatars(store, ordered, cap).listed), Ids(store), ids);
    UniqueIdsCardinality(after);
    UniqueIdsCardinality(store);
    DifferenceCardinality(Ids(store), ToSet(ids));
  }

  lemma ChosenIdsAreStored(listedIds: set<nat>, storedIds: set<nat>, ids: seq<nat>)
    requires listedIds <= storedIds
    requires forall k :: k in ids ==> k in listedIds
    ensures ToSet(ids) <= storedIds
  {
  }

  lemma DifferenceCardinality(a: set<nat>, b: set<nat>)
    requires b <= a
    ensures |a - b| == |a| - |b|
  {
    assert a == (a - b) + b;
  }

  /** More avatars with distinct ids than submitted ids: some avatar was not
      chosen. */
  lemma MoreListedThanChosen(listed: seq<Avatar>, ids: seq<nat>)
    requires UniqueIds(listed) && |listed| > |ids|
    ensures FirstUnchosen(listed, ids).Some?
  {
    if FirstUnchosen(listed, ids).None? {
      assert Ids(listed) <= ToSet(ids);
      DifferenceCardinality(ToSet(ids), Ids(listed));
      UniqueIdsCardinality(listed);
      ToSetCardinality(ids);
      assert false;
    }
  }

  /** With ids unique in the store, delete promotes exactly when the current
      avatar was chosen and more avatars are listed than ids were submitted;
      the promotion is signalled by the single `avatar_updated` event. */
  lemma DeletePromotesIff(store: seq<Avatar>, ordered: seq<Avatar>, cap: nat, ids: seq<nat>, sendDeleted: bool)
    requires PrimaryFirst(store, ordered) && UniqueIds(store)
    requires ValidChoices(GetAvatars(store, ordered, cap).listed, ids)
    ensures GetAvatars(store, ordered, cap).current.Some?
    ensures var sel := GetAvatars(store, ordered, cap);
      var t := DeleteAvatars(store, ordered, cap, ids, sendDeleted);
      (exists e :: e in t.events && e.Updated?) <==> sel.current.value.id in ids && |sel.listed| > |ids|
  {
    var current, p, deleted := DeleteUnfold(store, ordered, cap, ids, sendDeleted);
    var listed := GetAvatars(store, ordered, cap).listed;
    var evs := DeleteAvatars(store, ordered, cap, ids, sendDeleted).events;
    if current.id in ids && |listed| > |ids| {
      ListedAreStored(store, ordered, cap);
      MoreListedThanChosen(listed, ids);
      assert evs[|evs| - 1] == Updated(current);
    } else {
      assert evs == deleted;
    }
  }

  /** Unless the current avatar was chosen and more avatars are listed than ids
      were submitted, delete only removes: every flag stays as it was, the
      survivors are exactly the unchosen records in their order, and no
      `avatar_updated` is sent. */
  lemma NoPromotionOnlyRemoves(store: seq<Avatar>, ordered: seq<Avatar>, cap: nat, ids: seq<nat>, sendDeleted: bool)
    requires PrimaryFirst(store, ordered)
    requires ValidChoices(GetAvatars(store, ordered, cap).listed, ids)
    requires GetAvatars(store, ordered, cap).current.Some?
    requires var sel := GetAvatars(store, ordered, cap);
      !(sel.current.value.id in ids && |sel.listed| > |ids|)
    ensures var t := DeleteAvatars(store, ordered, cap, ids, sendDeleted);
      && t.store == Remove(store, ids)
      && forall e :: e in t.events ==> e.Deleted?
  {
    var current, p, deleted := DeleteUnfold(store, ordered, cap, ids, sendDeleted);
  }

  /** With no id submitted twice, "more listed than chosen" means exactly that
      some listed avatar survives the delete. */
  lemma DistinctChoicesCountSurvivors(store: seq<Avatar>, ordered: seq<Avatar>, cap: nat, ids: seq<nat>)
    requires PrimaryFirst(store, ordered) && UniqueIds(store) && Distinct(ids)
    requires ValidChoices(GetAvatars(store, ordered, cap).listed, ids)
    ensures |GetAvatars(store, ordered, cap).listed| > |ids|
        <==> exists a :: a in GetAvatars(store, ordered, cap).listed && a.id !in ids
  {
    var listed := GetAvatars(store, ordered, cap).listed;
    ListedAreStored(store, ordered, cap);
    UniqueIdsCardinality(listed);
    ToSetCardinality(ids);
    assert ToSet(ids) <= Ids(listed);
    if exists a :: a in listed && a.id !in ids {
      var a :| a in listed && a.id !in ids;
      assert a.id in Ids(listed) - ToSet(ids);
      assert Ids(listed) == ToSet(ids) + (Ids(listed) - ToSet(ids));
    } else {
      assert Ids(listed) == ToSet(ids);
    }
  }

  /** When every listed avatar is chosen, delete promotes nothing, whatever
      survives beyond the cap: the survivors are the unchosen records as they
      were, and no `avatar_updated` is sent. */
  lemma AllListedChosenNoPromotion(store: seq<Avatar>, ordered: seq<Avatar>, cap: nat, ids: seq<nat>, sendDeleted: bool)
    requires PrimaryFirst(store, ordered) && UniqueIds(store)
    requires ValidChoices(GetAvatars(store, ordered, cap).listed, ids)
    requires forall a :: a in GetAvatars(store, ordered, cap).listed ==> a.id in ids
    ensures var t := DeleteAvatars(store, ordered, cap, ids, sendDeleted);
      && t.store == Remove(store, ids)
      && forall e :: e in t.events ==> e.Deleted?
  {
    DeletePromotesIff(store, ordered, cap, ids, sendDeleted);
    ListedAreStored(store, ordered, cap);
    AllChosenCount(GetAvatars(store, ordered, cap).listed, ids);
    NoPromotionOnlyRemoves(store, ordered, cap, ids, sendDeleted);
  }

  /** Avatars with distinct ids, all of them chosen, are no more than the ids
      submitted. */
  lemma AllChosenCount(listed: seq<Avatar>, ids: seq<nat>)
    requires UniqueIds(listed)
    requires forall a :: a in listed ==> a.id in ids
    ensures |listed| <= |ids|
  {
    assert Ids(listed) <= ToSet(ids);
    DifferenceCardinality(ToSet(ids), Ids(listed));
    UniqueIdsCardinality(listed);
    ToSetCardinality(ids);
  }

  /** A concrete case where a repeated id hides a survivor from the count: of
      two avatars, the current one is chosen twice, so avatar 2 survives, yet
      nothing is promoted and no primary is left. */
  lemma RepeatedChoiceSkipsPromotion()
    ensures PrimaryFirst([Avatar(1, true), Avatar(2, false)], [Avatar(1, true), Avatar(2, false)])
    ensures ValidChoices(GetAvatars([Avatar(1, true), Avatar(2, false)], [Avatar(1, true), Avatar(2, false)], 5).listed, [1, 1])
    ensures DeleteAvatars([Avatar(1, true), Avatar(2, false)], [Avatar(1, true), Avatar(2, false)], 5, [1, 1], true)
      == Transition([Avatar(2, false)], [Deleted(Avatar(1, true))])
  {
    var s := [Avatar(1, true), Avatar(2, false)];
    assert Avatar(1, true) in s;
    assert s[..2] == s;
    var current, p, deleted := DeleteUnfold(s, s, 5, [1, 1], true);
    assert p.None?;
    assert Chosen(s, [1, 1]) == [Avatar(1, true)] by {
      assert Filter(s[1..], (a: Avatar) => a.id in [1, 1]) == [];
    }
    assert Remove(s, [1, 1]) == [Avatar(2, false)] by {
      assert Filter(s[1..], (a: Avatar) => a.id !in [1, 1]) == [Avatar(2, false)];
    }
  }

  /** A concrete case of `AllListedChosenNoPromotion`: with a cap of 2 and
      three avatars, deleting both listed avatars, the current one among them,
      leaves the unlisted third avatar, not promoted. */
  lemma UnlistedSurvivorNotPromoted()
    ensures PrimaryFirst([Avatar(1, true), Avatar(2, false), Avatar(3, false)], [Avatar(1, true), Avatar(2, false), Avatar(3, false)])
    ensures ValidChoices(GetAvatars([Avatar(1, true), Avatar(2, false), Avatar(3, false)], [Avatar(1, true), Avatar(2, false), Avatar(3, false)], 2).listed, [1, 2])
    ensures DeleteAvatars([Avatar(1, true), Avatar(2, false), Avatar(3, false)], [Avatar(1, true), Avatar(2, false), Avatar(3, false)], 2, [1, 2], false)
      == Transition([Avatar(3, false)], [])
  {
    var s := [Avatar(1, true), Avatar(2, false), Avatar(3, false)];
    ThreeListedAtCapTwo();
    var current, p, deleted := DeleteUnfold(s, s, 2, [1, 2], false);
    assert p.None?;
    ThreeLeaveThird();
  }

  lemma ThreeListedAtCapTwo()
    ensures var s := [Avatar(1, true), Avatar(2, false), Avatar(3, false)];
      && PrimaryFirst(s, s)
      && GetAvatars(s, s, 2) == Selection(Some(Avatar(1, true)), [Avatar(1, true), Avatar(2, false)])
  {
    var s := [Avatar(1, true), Avatar(2, false), Avatar(3, false)];
    assert s[..2] == [Avatar(1, true), Avatar(2, false)];
  }

  lemma ThreeLeaveThird()
    ensures Remove([Avatar(1, true), Avatar(2, false), Avatar(3, false)], [1, 2]) == [Avatar(3, false)]
  {
    var s := [Avatar(1, true), Avatar(2, false), Avatar(3, false)];
    assert s[1..][1..] == [Avatar(3, false)];
    assert Filter([Avatar(3, false)], (a: Avatar) => a.id !in [1, 2]) == [Avatar(3, false)];
  }

  /** When delete promotes, the promoted avatar is the first listed one whose id
      was not chosen; it survives as primary, and every other surviving record
      is exactly as it was. */
  lemma DeletePromotesFirstUnchosen(store: seq<Avatar>, ordered: seq<Avatar>, cap: nat, ids: seq<nat>, sendDeleted: bool)
    requires PrimaryFirst(store, ordered) && UniqueIds(store)
    requires ValidChoices(GetAvatars(store, ordered, cap).listed, ids)
    requires GetAvatars(store, ordered, cap).current.Some?
    requires GetAvatars(store, ordered, cap).current.value.id in ids
    requires |GetAvatars(store, ordered, cap).listed| > |ids|
    ensures FirstUnchosen(GetAvatars(store, ordered, cap).listed, ids).Some?
    ensures var listed := GetAvatars(store, ordered, cap).listed;
      var after := DeleteAvatars(store, ordered, cap, ids, sendDeleted).store;
      var p := listed[FirstUnchosen(listed, ids).value];
      && Avatar(p.id, true) in after
      && forall r :: r in after && r.id != p.id ==> r in store
  {
    var listed := GetAvatars(store, ordered, cap).listed;
    DeletePromotesIff(store, ordered, cap, ids, sendDeleted);
    var current, promoted, deleted := DeleteUnfold(store, ordered, cap, ids, sendDeleted);
    var after := DeleteAvatars(store, ordered, cap, ids, sendDeleted).store;
    if FirstUnchosen(listed, ids).None? {
      assert false;
    }
    var p := listed[FirstUnchosen(listed, ids).value];
    assert promoted == Some(p);
    ListedAreStored(store, ordered, cap);
    assert p in listed;
    var q :| 0 <= q < |store| && store[q] == p;
    var base := SetPrimary(store, p.id);
    assert after == Remove(base, ids);
    assert base[q] == Avatar(p.id, true);
    assert base[q] in base;
    forall r | r in after && r.id != p.id ensures r in store {
      var i :| 0 <= i < |base| && base[i] == r;
      assert store[i] == r;
    }
  }

  /** Deleting only avatars other than the current one changes no flag: the
      survivors are the unchosen records, unchanged and in order, and no
      `avatar_updated` is sent. */
  lemma DeleteKeepingCurrentChangesNoFlag(store: seq<Avatar>, ordered: seq<Avatar>, cap: nat, ids: seq<nat>, sendDeleted: bool)
    requires PrimaryFirst(store, ordered)
    requires ValidChoices(GetAvatars(store, ordered, cap).listed, ids)
    requires GetAvatars(store, ordered, cap).current.Some?
    requires GetAvatars(store, ordered, cap).current.value.id !in ids
    ensures Sub(DeleteAvatars(store, ordered, cap, ids, sendDeleted).store, store)
    ensures forall r :: r in DeleteAvatars(store, ordered, cap, ids, sendDeleted).store <==> r in store && r.id !in ids
    ensures forall e :: e in DeleteAvatars(store, ordered, cap, ids, sendDeleted).events ==> e.Deleted?
  {
    var current, p, deleted := DeleteUnfold(store, ordered, cap, ids, sendDeleted);
    assert p.None?;
  }

  /** With a cap of 1 the only listed avatar is the current one, so deleting it
      never promotes another avatar; every survivor is unchanged. */
  lemma CapOneNeverPromotes(store: seq<Avatar>, ordered: seq<Avatar>, ids: seq<nat>, sendDeleted: bool)
    requires PrimaryFirst(store, ordered)
    requires ValidChoices(GetAvatars(store, ordered, 1).listed, ids)
    ensures Sub(DeleteAvatars(store, ordered, 1, ids, sendDeleted).store, store)
    ensures forall e :: e in DeleteAvatars(store, ordered, 1, ids, sendDeleted).events ==> e.Deleted?
  {
    var current, p, deleted := DeleteUnfold(store, ordered, 1, ids, sendDeleted);
    assert |GetAvatars(store, ordered, 1).listed| <= 1;
    assert p.None?;
  }

  /** `delete` sends one `avatar_deleted` per chosen listed avatar, in list order,
      before anything else; `delete_avatar_for_user` sends none. Any further
      signal is an `avatar_updated`. */
  lemma DeleteSignalsInListOrder(store: seq<Avatar>, ordered: seq<Avatar>, cap: nat, ids: seq<nat>, sendDeleted: bool)
    requires PrimaryFirst(store, ordered)
    requires ValidChoices(GetAvatars(store, ordered, cap).listed, ids)
    ensures var c := Chosen(GetAvatars(store, ordered, cap).listed, ids);
      var evs := DeleteAvatars(store, ordered, cap, ids, sendDeleted).events;
      var n := if sendDeleted then |c| else 0;
      && n <= |evs| <= n + 1
      && (forall i :: 0 <= i < n ==> evs[i] == Deleted(c[i]))
      && (forall i :: n <= i < |evs| ==> evs[i].Updated?)
    ensures !sendDeleted ==> forall e :: e in DeleteAvatars(store, ordered, cap, ids, sendDeleted).events ==> e.Updated?
  {
    var current, p, deleted := DeleteUnfold(store, ordered, cap, ids, sendDeleted);
  }

  /** The `avatar_updated` sent after a promotion carries the old current avatar,
      which was itself deleted, not the promoted one. */
  lemma UpdatedCarriesOldCurrent(store: seq<Avatar>, ordered: seq<Avatar>, cap: nat, ids: seq<nat>, sendDeleted: bool)
    requires PrimaryFirst(store, ordered)
    requires ValidChoices(GetAvatars(store, ordered, cap).listed, ids)
    ensures var t := DeleteAvatars(store, ordered, cap, ids, sendDeleted);
      forall e :: e in t.events && e.Updated? ==>
        && Some(e.avatar) == GetAvatars(store, ordered, cap).current
        && e.avatar.id in ids
        && e.avatar.id !in Ids(t.store)
  {
    var current, p, deleted := DeleteUnfold(store, ordered, cap, ids, sendDeleted);
  }
}

=== FILE: avatars.dfy ===
/** The bookkeeping that the avatar views perform on one user's avatar records:
    choosing the current avatar, applying the per-user cap, and the state changes
    of the POST branches of add, change and delete. The record store is an
    in-memory sequence in natural (storage) order. */
module Avatars {
  import opened Seqs

  /** A stored avatar, reduced to what the views read and write. Image files,
      thumbnails and timestamps are not modelled. */
  datatype Avatar = Avatar(id: nat, primary: bool)

  /** A signal sent by a view: `avatar_updated` or `avatar_deleted`, with the
      avatar passed to it. */
  datatype Event = Updated(avatar: Avatar) | Deleted(avatar: Avatar)

  /** What `_get_avatars` returns: the current avatar (or none) and the avatars
      listed to the user. */
  datatype Selection = Selection(current: Option<Avatar>, listed: seq<Avatar>)

  /** The effect of a successful POST: the user's avatars afterwards and the
      signals sent, in the order they were sent. */
  datatype Transition = Transition(store: seq<Avatar>, events: seq<Event>)

  /** The ids of a sequence of avatars. */
  function Ids(avs: seq<Avatar>): set<nat>
  {
    set a | a in avs :: a.id
  }

  /** The store gives every avatar its own id. */
  predicate UniqueIds(avs: seq<Avatar>)
  {
    forall i, j :: 0 <= i < j < |avs| ==> avs[i].id != avs[j].id
  }

  predicate HasPrimary(avs: seq<Avatar>)
  {
    exists a :: a in avs && a.primary
  }

  function Min(a: nat, b: nat): nat
  {
    if a <= b then a else b
  }

  /** `ordered` is a result the store may give for `order_by('-primary')` on
      `store`: the same avatars, every primary one before every other one. The
      order among avatars with equal flags is left open. */
  predicate PrimaryFirst(store: seq<Avatar>, ordered: seq<Avatar>)
  {
    && multiset(ordered) == multiset(store)
    && forall i, j :: 0 <= i < j < |ordered| && ordered[j].primary ==> ordered[i].primary
  }

  /** The head of a primary-first ordering is a stored avatar, and it is primary
      whenever any stored avatar is. */
  lemma PrimaryFirstHead(store: seq<Avatar>, ordered: seq<Avatar>)
    requires PrimaryFirst(store, ordered)
    ensures |ordered| == |store|
    ensures ordered != [] ==> ordered[0] in store
    ensures HasPrimary(store) ==> ordered != [] && ordered[0].primary
  {
    assert |multiset(ordered)| == |ordered| && |multiset(store)| == |store|;
    if ordered != [] {
      assert ordered[0] in multiset(ordered);
    }
    if HasPrimary(store) {
      var a :| a in store && a.primary;
      assert a in multiset(store);
      assert a in multiset(ordered);
      var j :| 0 <= j < |ordered| && ordered[j] == a;
      assert ordered[0].primary;
    }
  }

  /** `_get_avatars`: the current avatar is the head of the primary-first
      ordering; with a cap of 1 only that avatar is listed, otherwise the first
      `cap` avatars in natural order. */
  function GetAvatars(store: seq<Avatar>, ordered: seq<Avatar>, cap: nat): (s: Selection)
    requires PrimaryFirst(store, ordered)
    ensures s.current.None? <==> store == []
    ensures s.current.Some? ==> s.current.value in store
    ensures HasPrimary(store) ==> s.current.Some? && s.current.value.primary
    ensures cap == 1 ==> s.listed == (if store == [] then [] else [s.current.value])
    ensures cap != 1 ==> s.listed == store[..Min(cap, |store|)]
  {
    PrimaryFirstHead(store, ordered);
    var top := ordered[..Min(1, |ordered|)];
    var current := if top == [] then None else Some(top[0]);
    Selection(current, if cap == 1 then top else store[..Min(cap, |store|)])
  }

  /** What a valid delete form yields: at least one id, each of a listed avatar. */
  predicate ValidChoices(listed: seq<Avatar>, ids: seq<nat>)
  {
    |ids| > 0 && forall k :: k in ids ==> k in Ids(listed)
  }

  /** The position of the first avatar whose id was not chosen (the loop at
      views.py lines 148-154, which breaks at the first such avatar). */
  function FirstUnchosen(listed: seq<Avatar>, ids: seq<nat>): (k: Option<nat>)
    ensures k.Some? ==> k.value < |listed| && listed[k.value].id !in ids
    ensures k.Some? ==> forall j :: 0 <= j < k.value ==> listed[j].id in ids
    ensures k.None? ==> forall j :: 0 <= j < |listed| ==> listed[j].id in ids
  {
    if listed == [] then None
    else if listed[0].id !in ids then Some(0)
    else match FirstUnchosen(listed[1..], ids)
      case None => None
      case Some(k) => Some(k + 1)
  }

  /** Sets the primary flag of the record with id `id`; no flag is cleared. */
  function SetPrimary(store: seq<Avatar>, id: nat): (r: seq<Avatar>)
    ensures |r| == |store|
    ensures forall i :: 0 <= i < |r| ==> r[i].id == store[i].id
    ensures forall i :: 0 <= i < |r| ==> r[i].primary == (store[i].primary || store[i].id == id)
    ensures Ids(r) == Ids(store)
  {
    var r := seq(|store|, i requires 0 <= i < |store| =>
      if store[i].id == id then store[i].(primary := true) else store[i]);
    assert forall k :: k in Ids(r) ==> k in Ids(store) by {
      forall k | k in Ids(r) ensures k in Ids(store) {
        var a :| a in r && a.id == k;
        var i :| 0 <= i < |r| && r[i] == a;
        assert store[i] in store;
      }
    }
    assert forall k :: k in Ids(store) ==> k in Ids(r) by {
      forall k | k in Ids(store) ensures k in Ids(r) {
        var a :| a in store && a.id == k;
        var i :| 0 <= i < |store| && store[i] == a;
        assert r[i] in r;
      }
    }
    r
  }

  /** `Avatar.objects.filter(id__in=ids).delete()`: every record whose id was
      chosen goes; the others stay, in order and unchanged. */
  function Remove(store: seq<Avatar>, ids: seq<nat>): (r: seq<Avatar>)
    ensures Sub(r, store)
    ensures forall a :: a in r <==> a in store && a.id !in ids
    ensures Ids(r) == Ids(store) - ToSet(ids)
  {
    Filter(store, (a: Avatar) => a.id !in ids)
  }

  /** The avatars the delete form chose, in list order. */
  function Chosen(listed: seq<Avatar>, ids: seq<nat>): (c: seq<Avatar>)
    ensures Sub(c, listed)
    ensures forall a :: a in c <==> a in listed && a.id in ids
  {
    Filter(listed, (a: Avatar) => a.id in ids)
  }

  /** One `avatar_deleted` signal per avatar, in order. */
  function DeletedSignals(avs: seq<Avatar>): (evs: seq<Event>)
    ensures |evs| == |avs|
    ensures forall i :: 0 <= i < |avs| ==> evs[i] == Deleted(avs[i])
  {
    seq(|avs|, i requires 0 <= i < |avs| => Deleted(avs[i]))
  }

  /** The avatar that delete promotes, if any: only when the current avatar was
      chosen and more avatars are listed than ids were chosen, and then the
      first listed avatar that was not chosen. */
  function Promotion(listed: seq<Avatar>, current: Avatar, ids: seq<nat>): (p: Option<Avatar>)
    ensures p.Some? ==> current.id in ids && |listed| > |ids|
    ensures p.Some? ==> p.value in listed && p.value.id !in ids
  {
    if current.id in ids && |listed| > |ids| then
      match FirstUnchosen(listed, ids)
      case None => None
      case Some(k) => Some(listed[k])
    else None
  }

  /** The POST branch of `add` and `add_avatar_for_user` after a valid upload:
      one new record, marked primary, and one `avatar_updated` signal for it.
      `newId` is the id the store assigns. */
  function AddAvatar(store: seq<Avatar>, newId: nat): (t: Transition)
    ensures |t.store| == |store| + 1 && t.store[..|store|] == store
    ensures t.store[|store|] == Avatar(newId, true)
    ensures Ids(t.store) == Ids(store) + {newId}
    ensures Avatar(newId, true) in t.store && HasPrimary(t.store)
    ensures t.events == [Updated(Avatar(newId, true))]
  {
    var a := Avatar(newId, true);
    var r := store + [a];
    assert r[|store|] == a;
    assert forall b :: b in r <==> b in store || b == a;
    Transition(r, [Updated(a)])
  }

  /** The POST branch of `change` and `change_avatar_for_user` after a valid
      choice: the chosen record becomes primary, no other flag changes, and the
      chosen avatar is signalled as updated. */
  function ChangeAvatar(store: seq<Avatar>, choice: nat): (t: Transition)
    requires choice in Ids(store)
    ensures |t.store| == |store|
    ensures forall i :: 0 <= i < |store| && store[i].id != choice ==> t.store[i] == store[i]
    ensures forall i :: 0 <= i < |store| && store[i].id == choice ==> t.store[i] == Avatar(choice, true)
    ensures t.events == [Updated(Avatar(choice, true))]
  {
    Transition(SetPrimary(store, choice), [Updated(Avatar(choice, true))])
  }

  /** The POST branch of `delete` (`sendDeleted`) and of `delete_avatar_for_user`
      (not `sendDeleted`) after a valid choice of `ids`. */
  function DeleteAvatars(store: seq<Avatar>, ordered: seq<Avatar>, cap: nat, ids: seq<nat>, sendDeleted: bool): (t: Transition)
    requires PrimaryFirst(store, ordered)
    requires ValidChoices(GetAvatars(store, ordered, cap).listed, ids)
    ensures Ids(t.store) == Ids(store) - ToSet(ids)
    ensures forall e :: e in t.events && e.Deleted? ==> sendDeleted && e.avatar.id in ids
  {
    var sel := GetAvatars(store, ordered, cap);
    assert ids[0] in ids;
    var current := sel.current.value;
    var deleted := if sendDeleted then DeletedSignals(Chosen(sel.listed, ids)) else [];
    match Promotion(sel.listed, current, ids)
    case None => Transition(Remove(store, ids), deleted)
    case Some(p) => Transition(Remove(SetPrimary(store, p.id), ids), deleted + [Updated(current)])
  }
}

=== FILE: decimal.dfy ===
/** Decimal digit strings: the `\d` character class of the route table and
    Python's `int()` applied to the size segment. `\d` is taken to be the ASCII
    digits. */
module Decimal {
  import opened Seqs

  predicate IsDigit(c: char)
  {
    '0' <= c <= '9'
  }

  predicate AllDigits(s: string)
  {
    forall i :: 0 <= i < |s| ==> IsDigit(s[i])
  }

  function DigitValue(c: char): nat
    requires IsDigit(c)
  {
    c as int - '0' as int
  }

  function DigitChar(d: nat): (c: char)
    requires d < 10
    ensures IsDigit(c) && DigitValue(c) == d
  {
    ('0' as int + d) as char
  }

  /** The number a digit string denotes; leading zeros are allowed. */
  function Value(s: string): nat
    requires AllDigits(s)
  {
    if s == [] then 0 else 10 * Value(s[..|s| - 1]) + DigitValue(s[|s| - 1])
  }

  /** `int(s)` on ASCII input without sign, spaces or underscores: a number when
      `s` is one or more digits, otherwise the `ValueError` case. */
  function ParseInt(s: string): (r: Option<nat>)
    ensures r.Some? <==> s != "" && AllDigits(s)
  {
    if s != "" && AllDigits(s) then Some(Value(s)) else None
  }

  /** `str(n)` for a natural number. */
  function Show(n: nat): (s: string)
    ensures s != "" && AllDigits(s)
  {
    if n < 10 then [DigitChar(n)] else Show(n / 10) + [DigitChar(n % 10)]
  }

  /** `int(str(n)) == n`: a size written into a URL parses back to itself. */
  lemma {:induction false} ParseShow(n: nat)
    ensures ParseInt(Show(n)) == Some(n)
  {
    if n >= 10 {
      ParseShow(n / 10);
      var s := Show(n);
      assert s[..|s| - 1] == Show(n / 10);
      assert Value(s) == 10 * Value(Show(n / 10)) + n % 10;
    }
  }
}

=== FILE: dispatch.dfy ===
/** The route table and the views together: what a resolved path hands to its
    view. */
module Dispatch {
  import opened Seqs
  import opened Decimal
  import Urls
  import UrlProperties
  import opened Avatars
  import opened Views

  /** Any path the table sends to render_primary carries a `user` and a `size`
      made of digits only, which `int()` accepts, so the view always redirects
      (`int()` is taken without CPython's limit on the number of digits). */
  lemma RoutedRenderPrimaryRedirects(path: string, primaryOf: (string, nat) -> Option<Avatar>)
    requires Urls.Resolve(path).Some? && Urls.Resolve(path).value.view == Urls.RenderPrimary
    ensures var kw := Urls.Resolve(path).value.kwargs;
      && "user" in kw && "size" in kw
      && RenderPrimaryView(kw["user"], kw["size"], primaryOf).RedirectTo?
  {
    var r := Urls.Resolve(path).value;
    UrlProperties.ResolveIsOrderFree(path, r.view, r.kwargs);
    UrlProperties.RenderPrimaryCaptures(path);
    UrlProperties.RenderPrimarySizeParses(path);
  }

  /** A render_primary link built from a user name and a size resolves to the
      view with those arguments, and the view asks for the primary avatar of
      that user at that very size. */
  lemma RenderPrimaryLinkRoundTrip(user: string, n: nat, primaryOf: (string, nat) -> Option<Avatar>)
    requires Urls.Word(user, Urls.IsRenderUserChar)
    ensures var path := "render_primary/" + user + "/" + Show(n) + "/";
      Urls.Resolve(path) == Some(Urls.Resolved(Urls.RenderPrimary, map["user" := user, "size" := Show(n)]))
    ensures var r := RenderPrimaryView(user, Show(n), primaryOf);
      && r.RedirectTo?
      && (primaryOf(user, n).Some? ==> r.location == SizedAvatar(primaryOf(user, n).value, n))
      && (primaryOf(user, n).None? ==> r.location == DefaultAvatar)
  {
    var path := "render_primary/" + user + "/" + Show(n) + "/";
    var kw := map["user" := user, "size" := Show(n)];
    ParseShow(n);
    UrlProperties.RenderPrimaryLanguage(user, Show(n));
    UrlProperties.ResolveIsOrderFree(path, Urls.RenderPrimary, kw);
  }

  /** `int()` ignores leading zeros, which the size pattern lets through. */
  lemma LeadingZeroValue()
    ensures ParseInt("080") == Some(80) && ParseInt("80") == Some(80)
  {
    assert "80"[..1] == "8" && "8"[..0] == "";
    assert "080"[..2] == "08" && "08"[..1] == "0" && "0"[..0] == "";
  }

  /** Leading zeros in the size are accepted by the route and ignored by
      `int()`: `080` and `80` give the same redirect. */
  lemma LeadingZerosSameRedirect(user: string, primaryOf: (string, nat) -> Option<Avatar>)
    requires Urls.Word(user, Urls.IsRenderUserChar)
    ensures Urls.Resolve("render_primary/" + user + "/" + "080" + "/").Some?
    ensures RenderPrimaryView(user, "080", primaryOf) == RenderPrimaryView(user, "80", primaryOf)
  {
    LeadingZeroValue();
    UrlProperties.RenderPrimaryLanguage(user, "080");
    UrlProperties.ResolveIsOrderFree("render_primary/" + user + "/" + "080" + "/", Urls.RenderPrimary, map["user" := user, "size" := "080"]);
  }
}

=== FILE: next_properties.dfy ===
/** Properties of the redirect-target chain. */
module NextProperties {
  import opened Seqs
  import opened Requests

  /** A natural first-non-empty reading of the precedence: the first non-empty
      value among the POST `next`, the GET `next` and the referer, else the
      request path. Each layer is skipped when absent or empty. */
  function FirstNonEmpty(candidates: seq<Option<string>>, fallback: string): (r: string)
    ensures r == fallback || exists i :: 0 <= i < |candidates| && Truthy(candidates[i]) && r == candidates[i].value
  {
    if candidates == [] then fallback
    else if Truthy(candidates[0]) then candidates[0].value
    else FirstNonEmpty(candidates[1..], fallback)
  }

  function Candidates(req: Request): seq<Option<string>>
  {
    [Lookup(req.post, "next", None), Lookup(req.query, "next", None), req.referer]
  }

  /** No value that is present is empty. */
  predicate NoEmptyValues(req: Request)
  {
    && ("next" in req.post ==> req.post["next"] != "")
    && ("next" in req.query ==> req.query["next"] != "")
    && (req.referer.Some? ==> req.referer.value != "")
  }

  /** When no present value is empty, `_get_next` is exactly the first-non-empty
      reading: POST `next`, then GET `next`, then referer, then path. */
  lemma GetNextIsPrecedenceChain(req: Request)
    requires NoEmptyValues(req)
    ensures GetNext(req) == FirstNonEmpty(Candidates(req), req.path)
  {
    var c := Candidates(req);
    assert c[1..][1..] == [req.referer];
    assert c[1..][1..][1..] == [];
    if !Truthy(c[0]) {
      assert FirstNonEmpty(c, req.path) == FirstNonEmpty(c[1..], req.path);
      if !Truthy(c[1]) {
        assert FirstNonEmpty(c[1..], req.path) == FirstNonEmpty([req.referer], req.path);
      }
    }
  }

  /** A POST `next` that is present but empty shadows every later layer: the
      result is the request path even when GET `next` and the referer are set.
      So the two readings part ways on such requests. */
  lemma EmptyPostNextFallsToPath(req: Request)
    requires "next" in req.post && req.post["next"] == ""
    ensures GetNext(req) == req.path
    ensures Truthy(Lookup(req.query, "next", None)) ==>
      FirstNonEmpty(Candidates(req), req.path) == req.query["next"]
  {
    var c := Candidates(req);
    assert !Truthy(c[0]);
    assert c[1..][0] == c[1];
  }

  /** The same holds one layer down: a present but empty GET `next` hides the
      referer. */
  lemma EmptyQueryNextHidesReferer(req: Request)
    requires "next" !in req.post && "next" in req.query && req.query["next"] == ""
    ensures GetNext(req) == req.path
  {
  }

  /** A concrete request: POST `next` empty, GET `next` set, referer set. */
  lemma EmptyPostNextExample()
    ensures var req := Request(Post, map["next" := ""], map["next" := "/home/"], Some("/back/"), "/avatar/change/", {}, true);
      GetNext(req) == "/avatar/change/" && FirstNonEmpty(Candidates(req), req.path) == "/home/"
  {
    var req := Request(Post, map["next" := ""], map["next" := "/home/"], Some("/back/"), "/avatar/change/", {}, true);
    EmptyPostNextFallsToPath(req);
  }

  /** The redirect target is never empty unless the path is. */
  lemma RedirectTargetNonEmpty(nextOverride: Option<string>, req: Request)
    requires req.path != ""
    ensures RedirectTarget(nextOverride, req) != ""
  {
  }
}

=== FILE: requests.dfy ===
/** The parts of an HTTP request the avatar views read, and `_get_next`, the
    precedence chain that picks where to redirect after a view has done its work. */
module Requests {
  import opened Seqs

  /** `request.method`: the views only distinguish POST; every other method behaves like GET. */
  datatype Method = Get | Post | OtherMethod

  /** `post` and `query` hold the last value sent for each key, as
      `QueryDict.get` returns it; `referer` is the `HTTP_REFERER` header;
      `files` names the uploaded file fields. */
  datatype Request = Request(
    verb: Method,
    post: map<string, string>,
    query: map<string, string>,
    referer: Option<string>,
    path: string,
    files: set<string>,
    authenticated: bool)

  /** Python truthiness of an optional string: `None` and `""` are false. */
  predicate Truthy(v: Option<string>)
  {
    v.Some? && v.value != ""
  }

  /** `d.get(key, default)`. */
  function Lookup(d: map<string, string>, key: string, default: Option<string>): (v: Option<string>)
    ensures key in d ==> v == Some(d[key])
    ensures key !in d ==> v == default
  {
    if key in d then Some(d[key]) else default
  }

  /** `_get_next`: the POST `next` if that key is present, else the GET `next`
      if present, else the referer; whichever value is picked, an empty one is
      replaced by the request path. */
  function GetNext(req: Request): (next: string)
    ensures "next" in req.post ==> next == (if req.post["next"] != "" then req.post["next"] else req.path)
    ensures "next" !in req.post && "next" in req.query ==>
      next == (if req.query["next"] != "" then req.query["next"] else req.path)
    ensures "next" !in req.post && "next" !in req.query ==>
      next == (if Truthy(req.referer) then req.referer.value else req.path)
  {
    var next := Lookup(req.post, "next", Lookup(req.query, "next", req.referer));
    if Truthy(next) then next.value else req.path
  }

  /** `next_override or _get_next(request)`: the target every view redirects to,
      and the `next` it puts in its template context. */
  function RedirectTarget(nextOverride: Option<string>, req: Request): (target: string)
    ensures Truthy(nextOverride) ==> target == nextOverride.value
    ensures !Truthy(nextOverride) ==> target == GetNext(req)
  {
    if Truthy(nextOverride) then nextOverride.value else GetNext(req)
  }
}

=== FILE: seqs.dfy ===
/** Generic helpers: Option, order-preserving filtering and subsequences. */
module Seqs {

  /** An optional value: `None` where the Python code has `None`, otherwise `Some(value)`. */
  datatype Option<+T> = None | Some(value: T)

  /** `xs` is obtained from `ys` by dropping elements, keeping the order of the rest. */
  predicate Sub<T(==)>(xs: seq<T>, ys: seq<T>)
    decreases |ys|
  {
    xs == [] || (ys != [] && ((xs[0] == ys[0] && Sub(xs[1..], ys[1..])) || Sub(xs, ys[1..])))
  }

  /** The elements of `s` satisfying `keep`, in their original order. */
  function Filter<T(==,!new)>(s: seq<T>, keep: T -> bool): (r: seq<T>)
    ensures Sub(r, s)
    ensures |r| <= |s|
    ensures forall x :: x in r <==> x in s && keep(x)
  {
    if s == [] then []
    else if keep(s[0]) then [s[0]] + Filter(s[1..], keep)
    else Filter(s[1..], keep)
  }

  /** The set of elements of a sequence. */
  function ToSet<T>(s: seq<T>): set<T>
  {
    set x | x in s
  }

  /** No element occurs twice. */
  predicate Distinct<T(==)>(s: seq<T>)
  {
    forall i, j :: 0 <= i < j < |s| ==> s[i] != s[j]
  }

  /** A sequence has at least as many positions as distinct elements, and exactly as
      many when nothing repeats. */
  lemma {:induction false} ToSetCardinality<T>(s: seq<T>)
    ensures |ToSet(s)| <= |s|
    ensures Distinct(s) ==> |ToSet(s)| == |s|
  {
    if s != [] {
      ToSetCardinality(s[1..]);
      assert ToSet(s) == {s[0]} + ToSet(s[1..]);
      if Distinct(s) {
        assert Distinct(s[1..]);
        assert s[0] !in ToSet(s[1..]);
      }
    }
  }

  /** Every element of a subsequence occurs in the sequence. */
  lemma {:induction false} SubMembers<T>(xs: seq<T>, ys: seq<T>)
    requires Sub(xs, ys)
    ensures forall x :: x in xs ==> x in ys
    decreases |ys|
  {
    if xs != [] {
      if xs[0] == ys[0] && Sub(xs[1..], ys[1..]) {
        SubMembers(xs[1..], ys[1..]);
        assert forall x :: x in xs ==> x == xs[0] || x in xs[1..];
      } else {
        SubMembers(xs, ys[1..]);
      }
    }
  }
}

=== FILE: url_properties.dfy ===
/** Properties of the route table: each pattern accepts exactly its language,
    the patterns are pairwise disjoint so list order does not matter, and the
    captured arguments have the shapes the views rely on. */
module UrlProperties {
  import opened Seqs
  import opened Decimal
  import opened Urls

  predicate IsForUserView(v: View)
  {
    v == AddForUser || v == ChangeForUser || v == DeleteForUser
  }

  predicate IsLiteralView(v: View)
  {
    v == Add || v == Change || v == Delete
  }

  // ------------------------------------------------------------ segments

  lemma {:induction false} SpanOfWord(u: string, rest: string, cls: char -> bool)
    requires forall i :: 0 <= i < |u| ==> cls(u[i])
    requires rest != [] && !cls(rest[0])
    ensures Span(u + rest, cls) == |u|
  {
    if u != [] {
      assert (u + rest)[1..] == u[1..] + rest;
      SpanOfWord(u[1..], rest, cls);
    }
  }

  /** `[cls]+/` captures exactly the run before the first slash. */
  lemma SegmentOfWord(u: string, rest: string, cls: char -> bool)
    requires Word(u, cls) && !cls('/')
    ensures Segment(u + "/" + rest, cls) == Some((u, rest))
  {
    assert u + "/" + rest == u + ("/" + rest);
    SpanOfWord(u, "/" + rest, cls);
    var s := u + "/" + rest;
    assert s[..|u|] == u && s[|u| + 1..] == rest;
  }

  lemma NoClassHasSlash()
    ensures !IsRenderUserChar('/') && !IsForUserChar('/') && !IsDigit('/')
  {
  }

  lemma RestAfterPrefix(p: string, tail: string)
    ensures StartsWith(p + tail, p) && (p + tail)[|p|..] == tail
  {
    assert (p + tail)[..|p|] == p;
  }

  // ------------------------------------------------------------ each pattern's language

  /** `^add/$`, `^change/$` and `^delete/$` match their literal and nothing else. */
  lemma LiteralPatternLanguage(v: View, path: string)
    requires IsLiteralView(v)
    ensures Match(v, path).Some? <==> path == Prefix(v)
    ensures Match(v, path).Some? ==> Match(v, path) == Some(map[])
  {
    if path == Prefix(v) {
      RestAfterPrefix(Prefix(v), "");
      assert Prefix(v) + "" == Prefix(v);
    }
    if Match(v, path).Some? {
      assert path == path[..|Prefix(v)|] + path[|Prefix(v)|..];
    }
  }

  /** `^render_primary/(?P<user>…)/(?P<size>[\d]+)/$` matches exactly the paths
      built from a user segment and a digit segment, and captures those two. */
  lemma RenderPrimaryLanguage(user: string, size: string)
    requires Word(user, IsRenderUserChar) && Word(size, IsDigit)
    ensures Match(RenderPrimary, "render_primary/" + user + "/" + size + "/") == Some(map["user" := user, "size" := size])
  {
    var path := "render_primary/" + user + "/" + size + "/";
    assert path == "render_primary/" + (user + "/" + (size + "/" + ""));
    RestAfterPrefix("render_primary/", user + "/" + (size + "/" + ""));
    NoClassHasSlash();
    SegmentOfWord(user, size + "/" + "", IsRenderUserChar);
    SegmentOfWord(size, "", IsDigit);
  }

  lemma RenderPrimaryCaptures(path: string)
    requires Match(RenderPrimary, path).Some?
    ensures var kw := Match(RenderPrimary, path).value;
      && kw.Keys == {"user", "size"}
      && Word(kw["user"], IsRenderUserChar) && Word(kw["size"], IsDigit)
      && path == "render_primary/" + kw["user"] + "/" + kw["size"] + "/"
  {
    var kw := Match(RenderPrimary, path).value;
    assert path == Prefix(RenderPrimary) + ArgsPath(RenderPrimary, kw);
    PrefixedArgsPath(Prefix(RenderPrimary), kw["user"], kw["size"], ArgsPath(RenderPrimary, kw));
  }

  lemma PrefixedArgsPath(p: string, u: string, s: string, rest: string)
    requires rest == u + "/" + s + "/"
    ensures p + rest == p + u + "/" + s + "/"
  {
  }

  /** `^<view>_for_user/(?P<for_user>[\w@\.\+\-_]+)/$` matches exactly the paths
      built from one name segment, and passes it on unchanged as `for_user`. */
  lemma ForUserLanguage(v: View, name: string)
    requires IsForUserView(v) && Word(name, IsForUserChar)
    ensures Match(v, Prefix(v) + name + "/") == Some(map["for_user" := name])
  {
    assert Prefix(v) + name + "/" == Prefix(v) + (name + "/" + "");
    RestAfterPrefix(Prefix(v), name + "/" + "");
    NoClassHasSlash();
    SegmentOfWord(name, "", IsForUserChar);
  }

  lemma ForUserCaptures(v: View, path: string)
    requires IsForUserView(v) && Match(v, path).Some?
    ensures var kw := Match(v, path).value;
      && kw.Keys == {"for_user"}
      && Word(kw["for_user"], IsForUserChar)
      && path == Prefix(v) + kw["for_user"] + "/"
  {
    var kw := Match(v, path).value;
    var name := kw["for_user"];
    assert ArgsPath(v, kw) == name + "/";
    assert path == Prefix(v) + (name + "/");
    assert GroupClass("for_user") == IsForUserChar;
  }

  // ------------------------------------------------------------ disjointness

  /** A position where the literal prefixes of two different patterns differ. */
  function ClashAt(v: View, w: View): (i: nat)
    requires v != w
    ensures i < |Prefix(v)| && i < |Prefix(w)| && Prefix(v)[i] != Prefix(w)[i]
  {
    if Prefix(v)[0] != Prefix(w)[0] then 0
    else if |Prefix(v)| <= |Prefix(w)| then |Prefix(v)| - 1
    else |Prefix(w)| - 1
  }

  /** No path matches two patterns. */
  lemma PatternsDisjoint(v: View, w: View, path: string)
    requires v != w && Match(v, path).Some?
    ensures Match(w, path).None?
  {
    if Match(w, path).Some? {
      var i := ClashAt(v, w);
      assert false;
    }
  }

  /** Given disjoint patterns, the first match in any list is the only match. */
  lemma {:induction false} FirstMatchIsOnlyMatch(patterns: seq<View>, path: string, v: View, kwargs: map<string, string>)
    ensures FirstMatch(patterns, path) == Some(Resolved(v, kwargs)) <==> v in patterns && Match(v, path) == Some(kwargs)
  {
    if v in patterns && Match(v, path) == Some(kwargs) {
      var r := FirstMatch(patterns, path);
      assert r.Some?;
      if r.value.view != v {
        PatternsDisjoint(v, r.value.view, path);
      }
    }
  }

  /** Resolution picks the one pattern that matches, whatever the list order:
      a path resolves to `v` with `kwargs` exactly when pattern `v` matches it
      with those captures. */
  lemma ResolveIsOrderFree(path: string, v: View, kwargs: map<string, string>)
    ensures Resolve(path) == Some(Resolved(v, kwargs)) <==> Match(v, path) == Some(kwargs)
  {
    FirstMatchIsOnlyMatch(UrlPatterns, path, v, kwargs);
  }

  /** `reverse()` and resolution are inverse: the path built from any
      well-formed arguments of a pattern resolves to that pattern's view with
      exactly those arguments. */
  lemma ReverseThenResolve(v: View, kwargs: map<string, string>)
    requires kwargs.Keys == Groups(v) && WellFormedArgs(kwargs)
    ensures Match(v, Reverse(v, kwargs)) == Some(kwargs)
    ensures Resolve(Reverse(v, kwargs)) == Some(Resolved(v, kwargs))
  {
    ReverseThenMatch(v, kwargs);
    ResolveIsOrderFree(Reverse(v, kwargs), v, kwargs);
  }

  lemma ReverseThenMatch(v: View, kwargs: map<string, string>)
    requires kwargs.Keys == Groups(v) && WellFormedArgs(kwargs)
    ensures Match(v, Reverse(v, kwargs)) == Some(kwargs)
  {
    if IsLiteralView(v) {
      ReverseLiteral(v, kwargs);
    } else if v == RenderPrimary {
      ReverseRenderPrimary(kwargs);
    } else {
      ReverseForUser(v, kwargs);
    }
  }

  lemma ReverseLiteral(v: View, kwargs: map<string, string>)
    requires IsLiteralView(v) && kwargs.Keys == Groups(v)
    ensures Match(v, Reverse(v, kwargs)) == Some(kwargs)
  {
    assert Reverse(v, kwargs) == Prefix(v);
    LiteralPatternLanguage(v, Prefix(v));
    assert kwargs == map[];
  }

  lemma ReverseRenderPrimary(kwargs: map<string, string>)
    requires kwargs.Keys == Groups(RenderPrimary) && WellFormedArgs(kwargs)
    ensures Match(RenderPrimary, Reverse(RenderPrimary, kwargs)) == Some(kwargs)
  {
    var u, n := kwargs["user"], kwargs["size"];
    RenderPrimaryArgWords(kwargs);
    RenderPrimaryArgsMap(kwargs);
    RenderPrimaryReversePath(kwargs);
    RenderPrimaryLanguage(u, n);
  }

  lemma RenderPrimaryArgWords(kwargs: map<string, string>)
    requires kwargs.Keys == Groups(RenderPrimary) && WellFormedArgs(kwargs)
    ensures Word(kwargs["user"], IsRenderUserChar) && Word(kwargs["size"], IsDigit)
  {
    assert Word(kwargs["user"], GroupClass("user")) && Word(kwargs["size"], GroupClass("size"));
  }

  lemma RenderPrimaryArgsMap(kwargs: map<string, string>)
    requires kwargs.Keys == Groups(RenderPrimary)
    ensures kwargs == map["user" := kwargs["user"], "size" := kwargs["size"]]
  {
  }

  lemma RenderPrimaryReversePath(kwargs: map<string, string>)
    requires kwargs.Keys == Groups(RenderPrimary)
    ensures Reverse(RenderPrimary, kwargs) == "render_primary/" + kwargs["user"] + "/" + kwargs["size"] + "/"
  {
    PrefixedArgsPath(Prefix(RenderPrimary), kwargs["user"], kwargs["size"], ArgsPath(RenderPrimary, kwargs));
  }

  lemma ReverseForUser(v: View, kwargs: map<string, string>)
    requires IsForUserView(v) && kwargs.Keys == Groups(v) && WellFormedArgs(kwargs)
    ensures Match(v, Reverse(v, kwargs)) == Some(kwargs)
  {
    var name := kwargs["for_user"];
    assert Word(name, GroupClass("for_user"));
    ForUserLanguage(v, name);
    ForUserPath(v, kwargs);
    assert kwargs == map["for_user" := name];
  }

  lemma ForUserPath(v: View, kwargs: map<string, string>)
    requires IsForUserView(v) && kwargs.Keys == Groups(v)
    ensures Reverse(v, kwargs) == Prefix(v) + kwargs["for_user"] + "/"
  {
    assert ArgsPath(v, kwargs) == kwargs["for_user"] + "/";
  }

  /** Any reordering of the table resolves every path the same way. */
  lemma ReorderedTableResolvesAlike(patterns: seq<View>, path: string)
    requires forall v :: v in patterns <==> v in UrlPatterns
    ensures FirstMatch(patterns, path) == Resolve(path)
  {
    var r := FirstMatch(patterns, path);
    var s := Resolve(path);
    if r.Some? {
      FirstMatchIsOnlyMatch(UrlPatterns, path, r.value.view, r.value.kwargs);
    }
  }

  // ------------------------------------------------------------ what the views receive

  /** `add/`, `change/` and `delete/` resolve only when the path is exactly that
      literal, trailing slash included, and then to `add`, `change`, `delete`. */
  lemma LiteralRoutesExact(path: string, v: View)
    requires IsLiteralView(v)
    ensures (Resolve(path).Some? && Resolve(path).value.view == v) <==> path == Prefix(v)
    ensures path == Prefix(v) ==> Resolve(path) == Some(Resolved(v, map[]))
  {
    LiteralPatternLanguage(v, path);
    if Resolve(path).Some? && Resolve(path).value.view == v {
      ResolveIsOrderFree(path, v, Resolve(path).value.kwargs);
    }
    if path == Prefix(v) {
      ResolveIsOrderFree(path, v, map[]);
    }
  }

  /** Every captured segment is non-empty and contains no `/`. */
  lemma CapturedSegmentsWellFormed(path: string)
    requires Resolve(path).Some?
    ensures forall k :: k in Resolve(path).value.kwargs ==>
      Resolve(path).value.kwargs[k] != "" && '/' !in Resolve(path).value.kwargs[k]
  {
    var r := Resolve(path).value;
    NoClassHasSlash();
    if r.view == RenderPrimary {
      RenderPrimaryCaptures(path);
    } else if IsForUserView(r.view) {
      ForUserCaptures(r.view, path);
    } else {
      LiteralPatternLanguage(r.view, path);
    }
  }

  /** The size handed to `render_primary` is one or more digits, so `int(size)`
      in the view always succeeds. */
  lemma RenderPrimarySizeParses(path: string)
    requires Resolve(path).Some? && Resolve(path).value.view == RenderPrimary
    ensures "size" in Resolve(path).value.kwargs
    ensures AllDigits(Resolve(path).value.kwargs["size"])
    ensures ParseInt(Resolve(path).value.kwargs["size"]).Some?
  {
    RenderPrimaryCaptures(path);
  }

  /** A `+` never reaches `render_primary`, while any name from the for-user
      alphabet, `+` included, reaches the three for-user views unchanged. */
  lemma PlusOnlyForUser(path: string, v: View, name: string)
    requires IsForUserView(v) && Word(name, IsForUserChar)
    ensures Resolve(path).Some? && Resolve(path).value.view == RenderPrimary ==>
      "user" in Resolve(path).value.kwargs && '+' !in Resolve(path).value.kwargs["user"]
    ensures Resolve(Prefix(v) + name + "/") == Some(Resolved(v, map["for_user" := name]))
  {
    if Resolve(path).Some? && Resolve(path).value.view == RenderPrimary {
      var kw := Resolve(path).value.kwargs;
      assert Match(RenderPrimary, path) == Some(kw);
      RenderPrimaryCaptures(path);
      RenderUserHasNoPlus(kw["user"]);
    }
    ForUserLanguage(v, name);
    ResolveIsOrderFree(Prefix(v) + name + "/", v, map["for_user" := name]);
  }

  lemma RenderUserHasNoPlus(u: string)
    requires Word(u, IsRenderUserChar)
    ensures '+' !in u
  {
    assert !IsRenderUserChar('+');
  }

  /** A path that starts with one pattern's literal prefix matches no other
      pattern. */
  lemma PrefixSelectsPattern(v: View, w: View, path: string)
    requires StartsWith(path, Prefix(v)) && v != w
    ensures Match(w, path).None?
  {
    if Match(w, path).Some? {
      var i := ClashAt(v, w);
      assert false;
    }
  }

  /** A concrete name with a `+`: reachable through a for-user route, not
      through render_primary. */
  lemma PlusNameExample()
    ensures Resolve("add_for_user/a+b/") == Some(Resolved(AddForUser, map["for_user" := "a+b"]))
    ensures Resolve("render_primary/a+b/80/").None?
  {
    PlusNameReachesForUser();
    PlusNameMissesRenderPrimary();
  }

  lemma PlusNameReachesForUser()
    ensures Resolve("add_for_user/a+b/") == Some(Resolved(AddForUser, map["for_user" := "a+b"]))
  {
    assert Word("a+b", IsForUserChar);
    assert Prefix(AddForUser) + "a+b" + "/" == "add_for_user/a+b/";
    PlusOnlyForUser("", AddForUser, "a+b");
  }

  lemma PlusNameMissesRenderPrimary()
    ensures Resolve("render_primary/a+b/80/").None?
  {
    var p := "render_primary/a+b/80/";
    var rest := "a+b/80/";
    RestAfterPrefix("render_primary/", rest);
    assert p == "render_primary/" + rest;
    assert Span(rest, IsRenderUserChar) == 1 by {
      assert IsRenderUserChar(rest[0]) && !IsRenderUserChar(rest[1]);
      assert rest[1..][0] == '+';
    }
    assert Segment(rest, IsRenderUserChar).None?;
    assert RenderPrimaryArgs(rest).None?;
    assert Match(RenderPrimary, p).None?;
    forall w | w != RenderPrimary ensures Match(w, p).None? {
      PrefixSelectsPattern(RenderPrimary, w, p);
    }
  }
}

=== FILE: urls.dfy ===
/** The avatar route table: seven anchored patterns, each a literal prefix
    optionally followed by captured segments drawn from a restricted character
    class. A path is resolved to the first pattern that matches it, with the
    named groups as keyword arguments. Paths are relative to wherever the table
    is included. `\w` is taken to be the ASCII letters, digits and underscore. */
module Urls {
  import opened Seqs
  import opened Decimal

  /** The view each pattern dispatches to. */
  datatype View = Add | Change | Delete | RenderPrimary | AddForUser | ChangeForUser | DeleteForUser

  /** A resolved path: the view and the keyword arguments captured for it. */
  datatype Resolved = Resolved(view: View, kwargs: map<string, string>)

  /** `urlpatterns`, in list order. */
  const UrlPatterns: seq<View> := [Add, Change, Delete, RenderPrimary, AddForUser, ChangeForUser, DeleteForUser]

  /** `\w`, restricted to ASCII. */
  predicate IsWordChar(c: char)
  {
    'a' <= c <= 'z' || 'A' <= c <= 'Z' || IsDigit(c) || c == '_'
  }

  /** `[\w\d\@\.\-_]`, the class of the `user` group of render_primary. */
  predicate IsRenderUserChar(c: char)
  {
    IsWordChar(c) || IsDigit(c) || c == '@' || c == '.' || c == '-' || c == '_'
  }

  /** `[\w@\.\+\-_]`, the class of the `for_user` group. */
  predicate IsForUserChar(c: char)
  {
    IsWordChar(c) || c == '@' || c == '.' || c == '+' || c == '-' || c == '_'
  }

  /** The literal text each pattern starts with, after `^`. */
  function Prefix(v: View): string
  {
    match v
    case Add => "add/"
    case Change => "change/"
    case Delete => "delete/"
    case RenderPrimary => "render_primary/"
    case AddForUser => "add_for_user/"
    case ChangeForUser => "change_for_user/"
    case DeleteForUser => "delete_for_user/"
  }

  predicate StartsWith(s: string, p: string)
  {
    |p| <= |s| && s[..|p|] == p
  }

  /** Length of the longest prefix of `s` whose characters are all in `cls`. */
  function Span(s: string, cls: char -> bool): (n: nat)
    ensures n <= |s|
    ensures forall i :: 0 <= i < n ==> cls(s[i])
    ensures n < |s| ==> !cls(s[n])
  {
    if s == [] || !cls(s[0]) then 0 else 1 + Span(s[1..], cls)
  }

  /** `[cls]+/` at the start of `s`: the captured segment and what follows the
      slash. The class never contains `/`, so the greedy run is the only
      candidate and no backtracking is needed. */
  function Segment(s: string, cls: char -> bool): (r: Option<(string, string)>)
    ensures r.Some? ==> s == r.value.0 + "/" + r.value.1
    ensures r.Some? ==> r.value.0 != [] && forall i :: 0 <= i < |r.value.0| ==> cls(r.value.0[i])
  {
    var n := Span(s, cls);
    if n == 0 || n == |s| || s[n] != '/' then None
    else
      assert s == s[..n] + "/" + s[n + 1..];
      Some((s[..n], s[n + 1..]))
  }

  /** A non-empty run of characters from one class. */
  predicate Word(s: string, cls: char -> bool)
  {
    s != [] && forall i :: 0 <= i < |s| ==> cls(s[i])
  }

  /** The named groups each pattern captures. */
  function Groups(v: View): set<string>
  {
    match v
    case Add | Change | Delete => {}
    case RenderPrimary => {"user", "size"}
    case AddForUser | ChangeForUser | DeleteForUser => {"for_user"}
  }

  /** The character class of each named group. */
  function GroupClass(name: string): char -> bool
  {
    if name == "size" then IsDigit
    else if name == "user" then IsRenderUserChar
    else IsForUserChar
  }

  /** Every argument is a non-empty run of its group's class. */
  predicate WellFormedArgs(kwargs: map<string, string>)
  {
    forall k :: k in kwargs ==> Word(kwargs[k], GroupClass(k))
  }

  /** What follows the literal prefix in the path built from `kwargs`. */
  function ArgsPath(v: View, kwargs: map<string, string>): string
    requires Groups(v) <= kwargs.Keys
  {
    match v
    case Add | Change | Delete => ""
    case RenderPrimary => kwargs["user"] + "/" + kwargs["size"] + "/"
    case AddForUser | ChangeForUser | DeleteForUser => kwargs["for_user"] + "/"
  }

  /** The path pattern `v` produces from its arguments, as `reverse()` builds it. */
  function Reverse(v: View, kwargs: map<string, string>): string
    requires Groups(v) <= kwargs.Keys
  {
    Prefix(v) + ArgsPath(v, kwargs)
  }

  /** Whether pattern `v` matches the whole of `path`, and what it captures: a
      well-formed argument for each of its groups, from which the path is
      rebuilt exactly. */
  function Match(v: View, path: string): (m: Option<map<string, string>>)
    ensures m.Some? ==> m.value.Keys == Groups(v) && WellFormedArgs(m.value)
    ensures m.Some? ==> path == Reverse(v, m.value)
  {
    if StartsWith(path, Prefix(v)) then
      var rest := path[|Prefix(v)|..];
      assert path == Prefix(v) + rest;
      Captures(v, rest)
    else None
  }

  /** What the part of a pattern after its literal prefix captures from `rest`,
      which must be consumed entirely. */
  function Captures(v: View, rest: string): (r: Option<map<string, string>>)
    ensures r.Some? ==> r.value.Keys == Groups(v) && WellFormedArgs(r.value)
    ensures r.Some? ==> rest == ArgsPath(v, r.value)
  {
    match v
    case Add | Change | Delete => if rest == "" then Some(map[]) else None
    case RenderPrimary => RenderPrimaryArgs(rest)
    case AddForUser | ChangeForUser | DeleteForUser => ForUserArgs(rest)
  }

  /** `(?P<user>[\w\d\@\.\-_]+)/(?P<size>[\d]+)/$` */
  function RenderPrimaryArgs(rest: string): (r: Option<map<string, string>>)
    ensures r.Some? ==> r.value.Keys == {"user", "size"} && WellFormedArgs(r.value)
    ensures r.Some? ==> rest == r.value["user"] + "/" + r.value["size"] + "/"
  {
    match Segment(rest, IsRenderUserChar)
    case None => None
    case Some((user, more)) =>
      match Segment(more, IsDigit)
      case None => None
      case Some((size, tail)) =>
        if tail == "" then
          var kw := map["user" := user, "size" := size];
          assert kw["user"] == user && kw["size"] == size;
          assert rest == user + "/" + (size + "/" + "");
          Some(kw)
        else None
  }

  /** `(?P<for_user>[\w@\.\+\-_]+)/$` */
  function ForUserArgs(rest: string): (r: Option<map<string, string>>)
    ensures r.Some? ==> r.value.Keys == {"for_user"} && WellFormedArgs(r.value)
    ensures r.Some? ==> rest == r.value["for_user"] + "/"
  {
    match Segment(rest, IsForUserChar)
    case None => None
    case Some((name, tail)) =>
      if tail == "" then
        var kw := map["for_user" := name];
        assert kw["for_user"] == name;
        Some(kw)
      else None
  }

  /** The first pattern in `patterns` that matches `path`. */
  function FirstMatch(patterns: seq<View>, path: string): (r: Option<Resolved>)
    ensures r.Some? ==> r.value.view in patterns && Match(r.value.view, path) == Some(r.value.kwargs)
    ensures r.None? ==> forall v :: v in patterns ==> Match(v, path).None?
  {
    if patterns == [] then None
    else match Match(patterns[0], path)
      case Some(kwargs) => Some(Resolved(patterns[0], kwargs))
      case None => FirstMatch(patterns[1..], path)
  }

  /** Every view has a pattern in the table. */
  lemma EveryViewRouted(v: View)
    ensures v in UrlPatterns
  {
  }

  /** Resolving a path against the table: a resolved path is rebuilt from its
      view and arguments, and an unresolved one matches no pattern at all. */
  function Resolve(path: string): (r: Option<Resolved>)
    ensures r.Some? ==> Match(r.value.view, path) == Some(r.value.kwargs)
    ensures r.Some? ==> r.value.kwargs.Keys == Groups(r.value.view) && path == Reverse(r.value.view, r.value.kwargs)
    ensures r.None? ==> forall v: View :: Match(v, path).None?
  {
    var r := FirstMatch(UrlPatterns, path);
    assert r.None? ==> forall v: View :: Match(v, path).None? by {
      if r.None? {
        forall v: View ensures Match(v, path).None? {
          EveryViewRouted(v);
        }
      }
    }
    r
  }
}

=== FILE: view_properties.dfy ===
/** Properties that hold across the avatar views: where they redirect, what a
    shown page leaves alone, what the guards of the for-user views keep out, and
    how each for-user view relates to the view a user runs on their own
    avatars. */
module ViewProperties {
  import opened Seqs
  import opened Avatars
  import opened Requests
  import opened Views
  import AvatarProperties

  /** A non-empty `next_override` decides the target of every add, change and
      delete view, whether it redirects or shows the page; without one the
      target is `_get_next`. */
  lemma OverrideDecidesTarget(req: Request, store: seq<Avatar>, ordered: seq<Avatar>, cap: nat,
                              nextOverride: Option<string>, uploadValid: bool, newId: nat,
                              choice: Option<nat>, choices: Option<seq<nat>>, sendDeleted: bool)
    requires PrimaryFirst(store, ordered)
    requires choice.Some? ==> choice.value in Ids(GetAvatars(store, ordered, cap).listed)
    requires choices.Some? ==> ValidChoices(GetAvatars(store, ordered, cap).listed, choices.value)
    ensures var target := if Truthy(nextOverride) then nextOverride.value else GetNext(req);
      && Directs(AddBody(req, store, ordered, cap, nextOverride, uploadValid, newId).response, target)
      && Directs(ChangeBody(req, store, ordered, cap, nextOverride, choice).response, target)
      && Directs(DeleteBody(req, store, ordered, cap, nextOverride, choices, sendDeleted).response, target)
  {
  }

  /** A shown page leaves the avatars alone and shows `_get_avatars`. */
  predicate PageIsHarmless(o: Outcome, store: seq<Avatar>, ordered: seq<Avatar>, cap: nat)
    requires PrimaryFirst(store, ordered)
  {
    o.response.Render? ==>
      && Untouched(o, store)
      && o.response.current == GetAvatars(store, ordered, cap).current
      && o.response.listed == GetAvatars(store, ordered, cap).listed
  }

  /** Whenever a view shows its page instead of redirecting, it has written
      nothing and sent no signal, and the page shows `_get_avatars`. */
  lemma ShownPagesWriteNothing(req: Request, store: seq<Avatar>, ordered: seq<Avatar>, cap: nat,
                               nextOverride: Option<string>, uploadValid: bool, newId: nat,
                               choice: Option<nat>, choices: Option<seq<nat>>, sendDeleted: bool)
    requires PrimaryFirst(store, ordered)
    requires choice.Some? ==> choice.value in Ids(GetAvatars(store, ordered, cap).listed)
    requires choices.Some? ==> ValidChoices(GetAvatars(store, ordered, cap).listed, choices.value)
    ensures PageIsHarmless(AddBody(req, store, ordered, cap, nextOverride, uploadValid, newId), store, ordered, cap)
    ensures PageIsHarmless(ChangeBody(req, store, ordered, cap, nextOverride, choice), store, ordered, cap)
    ensures PageIsHarmless(DeleteBody(req, store, ordered, cap, nextOverride, choices, sendDeleted), store, ordered, cap)
  {
  }

  /** Only a POST writes: GET and every other method shows the page of each
      view. Change is the one view that redirects on every POST, valid choice
      or not; add and delete show the page again when the form is invalid. */
  lemma OnlyValidPostsWrite(req: Request, store: seq<Avatar>, ordered: seq<Avatar>, cap: nat,
                            nextOverride: Option<string>, newId: nat, sendDeleted: bool)
    requires PrimaryFirst(store, ordered)
    ensures req.verb != Post ==>
      && AddBody(req, store, ordered, cap, nextOverride, true, newId).response.Render?
      && ChangeBody(req, store, ordered, cap, nextOverride, None).response.Render?
      && DeleteBody(req, store, ordered, cap, nextOverride, None, sendDeleted).response.Render?
    ensures req.verb == Post ==>
      && AddBody(req, store, ordered, cap, nextOverride, false, newId).response.Render?
      && ChangeBody(req, store, ordered, cap, nextOverride, None) == Outcome(Redirect(RedirectTarget(nextOverride, req)), store, [])
      && DeleteBody(req, store, ordered, cap, nextOverride, None, sendDeleted).response.Render?
  {
  }

  /** The guards of the for-user views run in order: an anonymous request is
      sent to log in, an unknown or inactive user is not found, a refused
      requester is denied; in each case nothing is written or signalled. */
  lemma ForUserGuardsInOrder(req: Request, target: Target, store: seq<Avatar>, ordered: seq<Avatar>, cap: nat,
                             nextOverride: Option<string>, uploadValid: bool, newId: nat,
                             choice: Option<nat>, choices: Option<seq<nat>>)
    requires PrimaryFirst(store, ordered)
    requires choice.Some? ==> choice.value in Ids(GetAvatars(store, ordered, cap).listed)
    requires choices.Some? ==> ValidChoices(GetAvatars(store, ordered, cap).listed, choices.value)
    ensures var expected :=
        if !req.authenticated then Some(LoginRedirect)
        else if !target.found then Some(NotFound)
        else if !target.allowed then Some(PermissionDenied)
        else None;
      expected.Some? ==>
        && AddForUserView(req, target, store, ordered, cap, nextOverride, uploadValid, newId) == Outcome(expected.value, store, [])
        && ChangeForUserView(req, target, store, ordered, cap, nextOverride, choice) == Outcome(expected.value, store, [])
        && DeleteForUserView(req, target, store, ordered, cap, nextOverride, choices) == Outcome(expected.value, store, [])
  {
  }

  /** Acting on another user's avatars, add and change do exactly what the
      user's own views would do on the same avatars. */
  lemma ForUserAddChangeMatchOwn(req: Request, target: Target, store: seq<Avatar>, ordered: seq<Avatar>, cap: nat,
                                 nextOverride: Option<string>, uploadValid: bool, newId: nat, choice: Option<nat>)
    requires PrimaryFirst(store, ordered)
    requires choice.Some? ==> choice.value in Ids(GetAvatars(store, ordered, cap).listed)
    requires req.authenticated && target.found && target.allowed
    ensures AddForUserView(req, target, store, ordered, cap, nextOverride, uploadValid, newId)
      == AddView(req, store, ordered, cap, nextOverride, uploadValid, newId)
    ensures ChangeForUserView(req, target, store, ordered, cap, nextOverride, choice)
      == ChangeView(req, store, ordered, cap, nextOverride, choice)
  {
  }

  /** Delete for another user removes the same avatars and makes the same
      promotion as the user's own delete; the only difference is that the
      `avatar_deleted` signals, one per chosen listed avatar, are not sent. */
  lemma ForUserDeleteDropsDeletedSignals(req: Request, target: Target, store: seq<Avatar>, ordered: seq<Avatar>, cap: nat,
                                         nextOverride: Option<string>, ids: seq<nat>)
    requires PrimaryFirst(store, ordered)
    requires ValidChoices(GetAvatars(store, ordered, cap).listed, ids)
    requires req.authenticated && target.found && target.allowed && req.verb == Post
    ensures var own := DeleteView(req, store, ordered, cap, nextOverride, Some(ids));
      var other := DeleteForUserView(req, target, store, ordered, cap, nextOverride, Some(ids));
      && own.response == other.response
      && own.store == other.store
      && own.events == DeletedSignals(Chosen(GetAvatars(store, ordered, cap).listed, ids)) + other.events
      && forall e :: e in other.events ==> e.Updated?
  {
    var c1, p1, d1 := AvatarProperties.DeleteUnfold(store, ordered, cap, ids, true);
    var c2, p2, d2 := AvatarProperties.DeleteUnfold(store, ordered, cap, ids, false);
    AvatarProperties.DeleteSignalsInListOrder(store, ordered, cap, ids, false);
  }
}

=== FILE: views.dfy ===
/** The avatar views: add, change and delete with their for-user variants, and
    render_primary. Each view is a pure function from the request, the acted-on
    user's avatars and the outcome of the opaque collaborators (form validation,
    user lookup, the admin test, the store's id and ordering) to a response, the
    avatars afterwards and the signals sent. Messages, templates, thumbnails and
    cache invalidation have no modelled effect. */
module Views {
  import opened Seqs
  import opened Avatars
  import opened Requests
  import opened Decimal
  import AvatarProperties

  datatype Response =
      /** The target handed to `redirect()`, before any name reversal. */
    | Redirect(location: string)
      /** The template context: `avatar`, `avatars` and `next`. */
    | Render(current: Option<Avatar>, listed: seq<Avatar>, next: string)
      /** `login_required` turning an anonymous request away. */
    | LoginRedirect
      /** `get_object_or_404` finding no active user of that name. */
    | NotFound
      /** `AVATAR_ADMIN_TEST` refusing the requester. */
    | PermissionDenied

  /** A view's response, the acted-on user's avatars afterwards, and the signals
      sent, in order. */
  datatype Outcome = Outcome(response: Response, store: seq<Avatar>, events: seq<Event>)

  /** For the for-user views: whether an active user with the captured name
      exists, and whether the admin test admits the requester for that user. */
  datatype Target = Target(found: bool, allowed: bool)

  /** The response goes to `target`, or offers it as `next` when it renders. */
  predicate Directs(r: Response, target: string)
  {
    && (r.Redirect? ==> r.location == target)
    && (r.Render? ==> r.next == target)
  }

  /** Nothing was written and nothing signalled. */
  predicate Untouched(o: Outcome, store: seq<Avatar>)
  {
    o.store == store && o.events == []
  }

  /** The page shown on GET or after an invalid form: the selection of
      `_get_avatars` and the redirect target, with no change. */
  function Page(store: seq<Avatar>, ordered: seq<Avatar>, cap: nat, next: string): (o: Outcome)
    requires PrimaryFirst(store, ordered)
    ensures Untouched(o, store) && o.response.Render? && o.response.next == next
    ensures o.response.current == GetAvatars(store, ordered, cap).current
    ensures o.response.listed == GetAvatars(store, ordered, cap).listed
  {
    var sel := GetAvatars(store, ordered, cap);
    Outcome(Render(sel.current, sel.listed, next), store, [])
  }

  /** `login_required`, then for the for-user views the user lookup and then the
      admin test, each checked before the view body runs. */
  function Guard(req: Request, target: Option<Target>, store: seq<Avatar>, body: Outcome): (o: Outcome)
    ensures !req.authenticated ==> o == Outcome(LoginRedirect, store, [])
    ensures req.authenticated && target.Some? && !target.value.found ==> o == Outcome(NotFound, store, [])
    ensures req.authenticated && target.Some? && target.value.found && !target.value.allowed ==> o == Outcome(PermissionDenied, store, [])
    ensures req.authenticated && (target.None? || (target.value.found && target.value.allowed)) ==> o == body
  {
    if !req.authenticated then Outcome(LoginRedirect, store, [])
    else if target.Some? && !target.value.found then Outcome(NotFound, store, [])
    else if target.Some? && !target.value.allowed then Outcome(PermissionDenied, store, [])
    else body
  }

  // ------------------------------------------------------------ add

  /** The body of `add` and `add_avatar_for_user`: a POST carrying an `avatar`
      file that the upload form accepts stores a new primary avatar and
      redirects; anything else shows the page. */
  function AddBody(req: Request, store: seq<Avatar>, ordered: seq<Avatar>, cap: nat,
                   nextOverride: Option<string>, uploadValid: bool, newId: nat): (o: Outcome)
    requires PrimaryFirst(store, ordered)
    ensures Directs(o.response, RedirectTarget(nextOverride, req))
    ensures o.response.Redirect? <==> req.verb == Post && "avatar" in req.files && uploadValid
    ensures o.response.Redirect? ==> o.store == AddAvatar(store, newId).store && o.events == AddAvatar(store, newId).events
    ensures !o.response.Redirect? ==> o.response.Render? && Untouched(o, store)
  {
    var next := RedirectTarget(nextOverride, req);
    if req.verb == Post && "avatar" in req.files && uploadValid then
      var t := AddAvatar(store, newId);
      Outcome(Redirect(next), t.store, t.events)
    else
      Page(store, ordered, cap, next)
  }

  function AddView(req: Request, store: seq<Avatar>, ordered: seq<Avatar>, cap: nat,
                   nextOverride: Option<string>, uploadValid: bool, newId: nat): (o: Outcome)
    requires PrimaryFirst(store, ordered)
    ensures req.authenticated ==> o == AddBody(req, store, ordered, cap, nextOverride, uploadValid, newId)
    ensures !req.authenticated ==> o.response == LoginRedirect && Untouched(o, store)
  {
    Guard(req, None, store, AddBody(req, store, ordered, cap, nextOverride, uploadValid, newId))
  }

  function AddForUserView(req: Request, target: Target, store: seq<Avatar>, ordered: seq<Avatar>, cap: nat,
                          nextOverride: Option<string>, uploadValid: bool, newId: nat): (o: Outcome)
    requires PrimaryFirst(store, ordered)
    ensures req.authenticated && target.found && target.allowed ==>
      o == AddBody(req, store, ordered, cap, nextOverride, uploadValid, newId)
    ensures !(req.authenticated && target.found && target.allowed) ==> Untouched(o, store)
  {
    Guard(req, Some(target), store, AddBody(req, store, ordered, cap, nextOverride, uploadValid, newId))
  }

  // ------------------------------------------------------------ change

  /** The body of `change` and `change_avatar_for_user`. Every POST redirects;
      only a valid choice (`choice` present in the POST and accepted by the
      form) marks the chosen avatar primary and signals it. `choice` is the
      form's cleaned choice when it is valid. */
  function ChangeBody(req: Request, store: seq<Avatar>, ordered: seq<Avatar>, cap: nat,
                      nextOverride: Option<string>, choice: Option<nat>): (o: Outcome)
    requires PrimaryFirst(store, ordered)
    requires choice.Some? ==> choice.value in Ids(GetAvatars(store, ordered, cap).listed)
    ensures Directs(o.response, RedirectTarget(nextOverride, req))
    ensures o.response.Redirect? <==> req.verb == Post
    ensures req.verb == Post && choice.Some? ==>
      choice.value in Ids(store) && o.store == ChangeAvatar(store, choice.value).store && o.events == ChangeAvatar(store, choice.value).events
    ensures !(req.verb == Post && choice.Some?) ==> Untouched(o, store)
  {
    var next := RedirectTarget(nextOverride, req);
    if req.verb == Post then
      if choice.Some? then
        AvatarProperties.ListedAreStored(store, ordered, cap);
        var t := ChangeAvatar(store, choice.value);
        Outcome(Redirect(next), t.store, t.events)
      else
        Outcome(Redirect(next), store, [])
    else
      Page(store, ordered, cap, next)
  }

  function ChangeView(req: Request, store: seq<Avatar>, ordered: seq<Avatar>, cap: nat,
                      nextOverride: Option<string>, choice: Option<nat>): (o: Outcome)
    requires PrimaryFirst(store, ordered)
    requires choice.Some? ==> choice.value in Ids(GetAvatars(store, ordered, cap).listed)
    ensures req.authenticated ==> o == ChangeBody(req, store, ordered, cap, nextOverride, choice)
    ensures !req.authenticated ==> o.response == LoginRedirect && Untouched(o, store)
  {
    Guard(req, None, store, ChangeBody(req, store, ordered, cap, nextOverride, choice))
  }

  function ChangeForUserView(req: Request, target: Target, store: seq<Avatar>, ordered: seq<Avatar>, cap: nat,
                             nextOverride: Option<string>, choice: Option<nat>): (o: Outcome)
    requires PrimaryFirst(store, ordered)
    requires choice.Some? ==> choice.value in Ids(GetAvatars(store, ordered, cap).listed)
    ensures req.authenticated && target.found && target.allowed ==>
      o == ChangeBody(req, store, ordered, cap, nextOverride, choice)
    ensures !(req.authenticated && target.found && target.allowed) ==> Untouched(o, store)
  {
    Guard(req, Some(target), store, ChangeBody(req, store, ordered, cap, nextOverride, choice))
  }

  // ------------------------------------------------------------ delete

  /** The body of `delete` (`sendDeleted`) and `delete_avatar_for_user` (not
      `sendDeleted`): a POST with a valid choice deletes and redirects; anything
      else shows the page. `choices` is the form's cleaned list when it is
      valid. */
  function DeleteBody(req: Request, store: seq<Avatar>, ordered: seq<Avatar>, cap: nat,
                      nextOverride: Option<string>, choices: Option<seq<nat>>, sendDeleted: bool): (o: Outcome)
    requires PrimaryFirst(store, ordered)
    requires choices.Some? ==> ValidChoices(GetAvatars(store, ordered, cap).listed, choices.value)
    ensures Directs(o.response, RedirectTarget(nextOverride, req))
    ensures o.response.Redirect? <==> req.verb == Post && choices.Some?
    ensures o.response.Redirect? ==>
      o.store == DeleteAvatars(store, ordered, cap, choices.value, sendDeleted).store
      && o.events == DeleteAvatars(store, ordered, cap, choices.value, sendDeleted).events
    ensures !o.response.Redirect? ==> o.response.Render? && Untouched(o, store)
  {
    var next := RedirectTarget(nextOverride, req);
    if req.verb == Post && choices.Some? then
      var t := DeleteAvatars(store, ordered, cap, choices.value, sendDeleted);
      Outcome(Redirect(next), t.store, t.events)
    else
      Page(store, ordered, cap, next)
  }

  function DeleteView(req: Request, store: seq<Avatar>, ordered: seq<Avatar>, cap: nat,
                      nextOverride: Option<string>, choices: Option<seq<nat>>): (o: Outcome)
    requires PrimaryFirst(store, ordered)
    requires choices.Some? ==> ValidChoices(GetAvatars(store, ordered, cap).listed, choices.value)
    ensures req.authenticated ==> o == DeleteBody(req, store, ordered, cap, nextOverride, choices, true)
    ensures !req.authenticated ==> o.response == LoginRedirect && Untouched(o, store)
  {
    Guard(req, None, store, DeleteBody(req, store, ordered, cap, nextOverride, choices, true))
  }

  function DeleteForUserView(req: Request, target: Target, store: seq<Avatar>, ordered: seq<Avatar>, cap: nat,
                             nextOverride: Option<string>, choices: Option<seq<nat>>): (o: Outcome)
    requires PrimaryFirst(store, ordered)
    requires choices.Some? ==> ValidChoices(GetAvatars(store, ordered, cap).listed, choices.value)
    ensures req.authenticated && target.found && target.allowed ==>
      o == DeleteBody(req, store, ordered, cap, nextOverride, choices, false)
    ensures !(req.authenticated && target.found && target.allowed) ==> Untouched(o, store)
  {
    Guard(req, Some(target), store, DeleteBody(req, store, ordered, cap, nextOverride, choices, false))
  }

  // ------------------------------------------------------------ render_primary

  /** Where render_primary redirects: the primary avatar's rendition at the
      requested size, or the default avatar URL. */
  datatype Location = SizedAvatar(avatar: Avatar, size: nat) | DefaultAvatar

  /** render_primary's result; `SizeError` is the `ValueError` of `int(size)`. */
  datatype Rendered = RedirectTo(location: Location) | SizeError

  /** `render_primary`: parse the size, ask `get_primary_avatar` (here
      `primaryOf`) for the user's primary avatar at that size, and redirect to
      its rendition or to the default. */
  function RenderPrimaryView(user: string, size: string, primaryOf: (string, nat) -> Option<Avatar>): (r: Rendered)
    ensures r.SizeError? <==> ParseInt(size).None?
    ensures r.RedirectTo? && r.location.SizedAvatar? ==>
      ParseInt(size) == Some(r.location.size) && primaryOf(user, r.location.size) == Some(r.location.avatar)
    ensures r.RedirectTo? && r.location.DefaultAvatar? ==> primaryOf(user, ParseInt(size).value).None?
  {
    match ParseInt(size)
    case None => SizeError
    case Some(n) =>
      match primaryOf(user, n)
      case Some(a) => RedirectTo(SizedAvatar(a, n))
      case None => RedirectTo(DefaultAvatar)
  }
}
